=== FILE: README.md ===
# Card service model

A Dafny model of a small REST service for playing cards. The service keeps cards in an
in-memory list. Each card has a numeric `id`, a `suit`, a `value`, a `collection` and, for
cards created at run time, `createdAt`/`updatedAt` timestamps. A counter hands out ids.
On top of the list sit:

- the store (`CardModel`): get by id, create, partial update, delete, count;
- the service (`CardService`): pagination with a clamped page number and links to the
  neighbouring pages, plus pass-throughs to the store;
- the validators (`Validators`): card bodies in creation and update mode, pagination
  parameters, path ids;
- the controller (`CardController`): one handler per route. Each decides a status code
  and a JSON body, and calls the store only when every check passes.

The model is functional. The store is a value `Store(cards, nextId)`, and every operation
returns the store it leaves behind. A handler maps (store, request parts) to
(status, body, store).

The JavaScript behaviour the handlers depend on is modelled explicitly:

- `parseInt` with no radix (section 19.2.5 of ECMA-262): leading whitespace, one sign,
  an optional `0x`/`0X` prefix, then the longest run of digits, or NaN;
- `String.prototype.trim`, with the WhiteSpace and LineTerminator code points of
  ECMA-262;
- falsiness, and `typeof … === 'object'`;
- `String(x)` of a query parameter;
- `Array.prototype.join`;
- the decimal rendering of an integer in a template string.

Files:

- `wrappers.dfy`: `Option`.
- `js_strings.dfy`: trim, parseInt, integer rendering, join.
- `js_values.dfy`: JSON body values and query-string values.
- `validators.dfy`, `card_model.dfy`, `card_service.dfy`, `card_controller.dfy`: one
  file per source file of the core.

Main results:

- **Store invariant.** Ids strictly increase along the list and all lie below the counter.
  It holds of the seed, and create, delete and any update that does not set `id` keep it.
  Once an id is deleted it never appears again, neither through the store
  (`CardModel.DeletedIdNeverReturns`) nor through any sequence of API requests
  (`CardController.DeletedCardStaysGone`).
- **Pagination.** Walking pages 1..totalPages with a fixed limit gives back the whole list
  in order (`CardService.PagesPartition`).
- **parseInt.** Its result is fixed for every input: NaN when no digit follows the
  whitespace and sign, the hexadecimal value after a `0x` prefix, and otherwise the value of
  the leading decimal digits. It inverts the rendering of every integer
  (`JsStrings.ParseIntRoundTrip`). Validators and handlers therefore accept the rendering of
  every positive id.
- **Trim.** It is idempotent, so a created card's fields sent back as a creation body are
  accepted and stored unchanged (`CardController.CreatedFieldsRoundTrip`).

## Model

| member | source | states |
|---|---|---|
| JsStrings.Trim | utils/validators.js:19-44 | the result is the infix of the input left after removing whitespace at both ends: only whitespace lies outside it, its ends are not whitespace, and it is empty exactly when the input is all whitespace |
| JsStrings.TrimIdempotent | controllers/card.controller.js:102-106 | trimming an already trimmed string changes nothing |
| JsStrings.ParseInt | utils/validators.js:75 | parseInt of a string with no decimal digit is NaN; ParseIntWithoutLeadingDigit, ParseIntDecimalPrefix and ParseIntHexPrefix fix its result on every other string |
| JsStrings.ParseIntWithoutLeadingDigit | utils/validators.js:75 | when no decimal digit follows the leading whitespace and the optional sign ("a1", "+", "-x5", " - 1") parseInt gives NaN |
| JsStrings.ParseIntHexPrefix | utils/validators.js:75 | after whitespace, sign and a 0x or 0X prefix, parseInt reads the hexadecimal digits up to the first other character, negating for a minus, and gives NaN when there are none |
| JsStrings.ParseIntDecimalPrefix | utils/validators.js:75-77 | after whitespace and an optional sign, parseInt reads the decimal digits up to the first non-digit and ignores the rest, negating for a minus |
| JsStrings.ParseIntOfNumeral | utils/validators.js:75 | an unsigned numeral followed by a non-digit parses to the numeral's value |
| JsStrings.ParseIntRoundTrip | controllers/card.controller.js:61-68 | parseInt of the decimal rendering of any integer gives that integer back |
| JsStrings.IntToString | controllers/card.controller.js:68 | the rendering of an integer starts with a minus exactly when the integer is negative; the remaining characters are digits denoting the magnitude, with no leading zero except for zero itself, which is "0" |
| JsStrings.NatToString | controllers/card.controller.js:68 | the rendering of a natural number is a non-empty digit string with no leading zero that denotes the number |
| JsStrings.Join | controllers/card.controller.js:28 | joining no parts gives the empty string; otherwise the result starts with the first part and is as long as the parts plus one separator between each neighbouring pair |
| JsStrings.JoinSnoc | controllers/card.controller.js:97 | joining one more message appends the separator and the message to the join of the others, which fixes the join of any number of messages |
| JsStrings.JoinShort | controllers/card.controller.js:28 | joining one message gives it unchanged; joining two puts the separator between them |
| JsValues.Falsy | utils/validators.js:14 | every array and object is truthy, even an empty one; a string is falsy exactly when empty and a number exactly when zero |
| JsValues.IsObjectType | utils/validators.js:14 | a value is truthy with `typeof` object exactly when it is an array or an object; no string is of object type |
| JsValues.Prop | utils/validators.js:19-44 | a property read gives something other than undefined only on an object that owns the key, and then gives the owned value |
| JsValues.QueryText | controllers/card.controller.js:19-20 | a single query value is read as itself, and so is a one-element list; a longer list's values are joined with commas, so the text starts with the first value and then a comma; a missing or nested parameter has no digit |
| JsValues.QueryWithoutTextIsNaN | controllers/card.controller.js:19-20 | a missing or object-valued query parameter parses as NaN |
| Validators.CreationCheck | utils/validators.js:19-27 | the creation check of a field reports its message exactly when the field is not a non-blank string |
| Validators.UpdateCheck | utils/validators.js:30-44 | the update check of a field reports its message exactly when the field is present and not a non-blank string |
| Validators.FieldErrors | utils/validators.js:18-45 | the field errors are empty exactly when every field is acceptable; each field's message is present exactly when that field fails; messages come in the order suit, value, collection |
| Validators.NoErrorsMeansAllFieldsOk | utils/validators.js:18-47 | the concatenated field checks are empty exactly when all three fields are acceptable |
| Validators.ErrorsNameFailedFields | utils/validators.js:18-45 | a field's message is among the concatenated checks exactly when that field fails |
| Validators.ChecksInOrder | utils/validators.js:18-45 | the concatenated checks hold only field messages, in field order and without repetition |
| Validators.ValidateCardData | utils/validators.js:11-48 | valid exactly when there are no errors; anything but an object or array gives exactly the one "valid object" message; otherwise valid exactly when every field is acceptable, with one message per failing field in field order |
| Validators.CreationValidImpliesUpdateValid | utils/validators.js:18-45 | a body valid for creation is valid for update |
| Validators.UpdateWithoutFieldsIsValid | utils/validators.js:28-47 | an empty object or an array is a valid update body with no errors |
| Validators.ValidatePaginationParams | utils/validators.js:56-67 | valid exactly when no errors; the page message exactly when page is NaN or below 1; the limit message exactly when limit is NaN or outside 1..100; at most two messages, page first |
| Validators.ValidateCardId | utils/validators.js:74-82 | valid exactly when parseInt of the id is a number above zero; the error is null when valid and the fixed message otherwise |
| Validators.RenderedIdValidity | utils/validators.js:74-82 | the decimal rendering of an integer is a valid id exactly when the integer is positive |
| Validators.TrailingTextIsIgnored | utils/validators.js:74-82 | a positive numeral followed by non-digits, such as "12abc", is a valid id |
| Validators.DigitlessIdIsInvalid | utils/validators.js:74-82 | a string with no decimal digit, such as "abc", is rejected with the fixed message |
| Validators.IdWithoutLeadingDigitIsInvalid | utils/validators.js:74-82 | an id in which no decimal digit follows the whitespace and optional sign, such as "a1" or "-x5", is rejected with the fixed message |
| Validators.DecimalIdValidity | utils/validators.js:74-82 | an id made of whitespace, a sign and a decimal numeral is valid exactly when it is not negated and its digits are not all zero |
| Validators.HexIdValidity | utils/validators.js:74-82 | an id with a 0x prefix is valid exactly when hexadecimal digits follow, it is not negated, and they are not all zero |
| CardModel.Seed | models/card.model.js:9-16 | the four seed cards have strictly increasing ids, all below the initial counter 171836785996 |
| CardModel.FindIndex | models/card.model.js:64 | findIndex gives the first position holding the id, and none exactly when no card has it |
| CardModel.GetById | models/card.model.js:35-37 | the result is present exactly when some card has the id; it is the first such card |
| CardModel.Create | models/card.model.js:44-55 | the new card takes the old counter as id and the given fields and clock readings; it is appended, earlier cards are unchanged, and the counter grows by one |
| CardModel.Merge | models/card.model.js:67-71 | each property the updates carry overrides the card's, each one they lack keeps the card's, createdAt is kept and updatedAt is the new reading |
| CardModel.MergeIdempotent | models/card.model.js:67-71 | spreading the same updates again at the same time changes nothing |
| CardModel.Update | models/card.model.js:63-73 | an unknown id gives null and no change; otherwise the first card with the id stays at its position with supplied fields overriding, others kept, createdAt kept, updatedAt refreshed, and every other card untouched |
| CardModel.Delete | models/card.model.js:80-86 | an unknown id gives false and no change; otherwise true, the first card with the id is removed, the cards before and after keep their order, and the counter is untouched |
| CardModel.RemoveAt | models/card.model.js:84 | the list loses exactly its i-th element: the ones before keep their places and the ones after move down by one |
| CardModel.Count | models/card.model.js:92-94 | in a valid store the count is the number of distinct ids in use |
| CardModel.CountAfterOperations | models/card.model.js:92-94 | the count grows by one on create, is kept by update, and drops by one on deleting a present id |
| CardModel.CreatePreservesValid | models/card.model.js:44-55 | create keeps ids increasing and below the counter, and the new id exceeds every old one |
| CardModel.CreateThenGet | models/card.model.js:35-55 | a created card is found by its id |
| CardModel.UpdateKeepsIds | models/card.model.js:63-73 | an update without an id leaves the list of ids and the counter unchanged |
| CardModel.UpdatePreservesValid | models/card.model.js:63-73 | an update without an id keeps the store invariant |
| CardModel.DeletePreservesValid | models/card.model.js:80-86 | delete keeps the store invariant |
| CardModel.DeleteRemovesOnlyThatId | models/card.model.js:80-86 | in a valid store, after delete no card has the id and every card with another id is still there |
| CardModel.RunNeverReusesIds | models/card.model.js:16-86 | over any run of creates, deletes and id-free updates, the invariant holds, the counter never decreases, and an unused id below the counter stays unused |
| CardModel.DeletedIdNeverReturns | models/card.model.js:44-86 | after an id is deleted, no later run of store operations brings it back |
| CardService.TotalPages | services/card.service.js:21-22 | the page count is the least positive number of pages of size limit that holds every card |
| CardService.Slice | services/card.service.js:33 | the slice has the clamped length and its elements are the list's from the start index on |
| CardService.PageStartInRange | services/card.service.js:25-32 | every page from 1 to the page count starts inside the list, and every page but the last ends inside it |
| CardService.Paginate | services/card.service.js:18-49 | the page count bounds; current page in 1..totalPages, equal to the request when in range, 1 below and the last above; cards are the window from (page-1)*limit of at most limit cards, full on every page but the last, empty only for an empty store; next and previous present exactly when a neighbouring page exists, pointing at it |
| CardService.PagesFromSuffix | services/card.service.js:31-33 | the pages from p to the last, concatenated, are the list from page p's first index on |
| CardService.PagesPartition | services/card.service.js:31-33 | the pages 1..totalPages with a fixed limit, concatenated, are the whole list in order |
| CardService.LinksAreNeighbours | services/card.service.js:42-43 | following next gives the following page and following previous the preceding one |
| CardService.GetCardById | services/card.service.js:56-63 | present exactly when a card has the id, and then a stored card with that id |
| CardService.CreateCard | services/card.service.js:70-79 | the store's create: the card with the counter as id, the given fields and both clock readings is appended, and the counter advanced |
| CardService.UpdateCard | services/card.service.js:87-98 | the store's update: null exactly for an unknown id, which changes nothing; otherwise the first card with the id is replaced in place by the merge of the updates over it, which is returned, and every other card and the counter are kept |
| CardService.DeleteCard | services/card.service.js:105-116 | the store's delete: true exactly for a present id; false changes nothing; on true the first card with the id is removed and the others keep their order; counter kept |
| CardController.QueryParam | controllers/card.controller.js:19-20 | the page or limit is the non-zero number parseInt reads from the parameter's text, and the default when that is NaN or zero; so a missing or nested parameter gives the default |
| CardController.OrDefault | controllers/card.controller.js:19-20 | `parseInt(x) \|\| d` gives the default for NaN and for zero and the number otherwise |
| CardController.ListCards | controllers/card.controller.js:22-35 | 200 with the paginated store exactly when page >= 1 and limit in 1..100; otherwise 400 with the page message, the limit message, or both joined by "; " |
| CardController.GetCards | controllers/card.controller.js:17-35 | with page and limit from the query (defaults 1 and 10), 200 with the page exactly when they validate; otherwise 400 with the page message, the limit message, or both joined by "; " |
| CardController.GetCardById | controllers/card.controller.js:49-74 | a bad id gives 400 with the id message; an unknown id 404 naming it; a known one 200 with the stored card having it |
| CardController.RequiredField | controllers/card.controller.js:103-105 | the field read from a validated creation body is the body's string |
| CardController.CreateCard | controllers/card.controller.js:89-110 | 201 exactly when the body validates for creation; otherwise 400 with the messages joined and the store unchanged; on 201 the card takes the counter as id, holds the trimmed fields, and is appended |
| CardController.OptionalField | controllers/card.controller.js:162-165 | a field is passed on exactly when the body defines it, and then trimmed |
| CardController.UpdatesOf | controllers/card.controller.js:161-167 | the updates built from a body never carry an id |
| CardController.UpdateCard | controllers/card.controller.js:125-169 | a bad id gives 400; an unknown card 404 whatever the body; then an invalid body 400 with the messages joined; errors leave the store unchanged; on 200 the card at the same position keeps id and createdAt, takes the trimmed supplied fields and keeps the rest, and the other cards are untouched |
| CardController.UpdatedFields | controllers/card.controller.js:161-169 | the store's update with a valid body's updates sets exactly the supplied fields, trimmed, and keeps the id |
| CardController.DeleteCard | controllers/card.controller.js:183-214 | a bad id gives 400 and an unknown id 404, both without change; otherwise 200 echoing the id, the first card with that id is removed, the cards before and after it keep their order, and the counter is kept |
| CardController.ZeroQueryMeansDefault | controllers/card.controller.js:19-20 | `page=0` is served as page 1, and `limit=0` as the default limit 10, not rejected |
| CardController.OutOfRangeQueriesRejected | controllers/card.controller.js:22-31 | `page=-1` and `limit=101` are rejected with their messages, joined when both occur |
| CardController.SeedFirstPage | controllers/card.controller.js:17-35 | page 1 of size 2 over the seed store holds its first two cards, with 2 pages, a next link and no previous link |
| CardController.RenderedPathId | controllers/card.controller.js:51-61 | the rendering of a positive integer passes id validation and denotes that integer |
| CardController.CreateThenFetch | controllers/card.controller.js:49-110 | after POST creates a card, GET with its id answers 200 with the same card |
| CardController.DeleteTwice | controllers/card.controller.js:183-214 | deleting the same id twice answers 200 then 404, and GET then answers 404 |
| CardController.CreatedFieldsTrimmed | controllers/card.controller.js:102-106 | a created card's fields are non-empty and unchanged by trimming |
| CardController.TrimmedFieldsRecreate | controllers/card.controller.js:92-110 | a body of trimmed non-empty fields is accepted and stored as given |
| CardController.CreatedFieldsRoundTrip | controllers/card.controller.js:92-110 | a created card's fields sent back as a creation body are accepted and stored unchanged |
| CardController.CreateStep | controllers/card.controller.js:89-110 | POST keeps the store invariant, never moves the counter back and adds no id below it |
| CardController.UpdateStep | controllers/card.controller.js:125-169 | PUT keeps the store invariant, never moves the counter back, and leaves the list of ids exactly as it was |
| CardController.DeleteStep | controllers/card.controller.js:183-214 | DELETE keeps the store invariant, never moves the counter back, and every id left was already in the store |
| CardController.Serve | routes/card.routes.js:7-19 | the store effect of each route: the two GET routes leave the store as it is, POST advances the counter exactly when it answers 201, and PUT and DELETE keep the counter |
| CardController.ServeStep | controllers/card.controller.js:17-214 | every request keeps the store invariant, never moves the counter back, and adds no id below the counter |
| CardController.ServeAllStep | controllers/card.controller.js:17-214 | any sequence of requests keeps the invariant and adds no id below the starting counter |
| CardController.DeletedCardStaysGone | controllers/card.controller.js:183-214 | after DELETE removes a card, GET of its id answers 404 whatever requests follow |

## Left out

- Express wiring, routing, CORS, the body-size limit, the 404 and 500 middleware and process
  shutdown: framework and process I/O with no decision logic. The route table is represented
  only by `CardController.Serve`.
- The logger and every logging call: console output with no effect on results.
- The `try`/`catch` paths that answer 500: nothing in the modelled logic throws.
- The `timestamp` field of response bodies: a wall-clock reading. Card timestamps are
  modelled as clock readings passed in as parameters. Create takes two, since the source
  reads the clock twice.
- Aliasing: `getAll` returns the live array and `update` returns the stored object. The
  model works on values.
- CardService.Paginate: requires a limit of at least 1. With limit 0 the source divides by
  zero and pages over Infinity. The controller only calls with a limit validated to 1..100.
- JSON numbers are integers in the model. Fractional and non-finite numbers are not
  represented. The validators only ask whether a number is falsy or a string.
- Numbers are unbounded integers, not IEEE doubles. parseInt of more than 2^53 or of huge
  digit strings, and the exponent notation JavaScript uses to render integers of 10^21 and
  above, are not modelled. The seed ids are about 1.7 * 10^11.
- parseInt does not distinguish -0 from 0. Every use (`|| default`, `<= 0`) treats them
  alike.
- Query values nested inside a repeated query key are not modelled. A query value is
  absent, a string, a list of strings or an object.
- Strings are sequences of Unicode scalar values, while JavaScript strings are UTF-16 code
  units, so a JSON string holding a lone surrogate cannot be represented. No modelled
  operation depends on the difference: every whitespace and digit character lies in the Basic
  Multilingual Plane, so trim, parseInt, join and equality behave alike.
- Properties of card bodies other than `suit`, `value` and `collection`: validation ignores
  them and the controller never passes them on.
- CardModel.Update: the updates object holds only `id`, `suit`, `value` and `collection`. In
  the source the spread copies whatever keys `updates` has, so a `createdAt` key would
  overwrite it and any other key would be added to the card. The model keeps `createdAt`
  only because its `Patch` type cannot carry other keys. The one caller, the update handler,
  builds its updates from those three fields alone and never sets `id`.

=== FILE: card_controller.dfy ===
/** The request handlers (controllers/card.controller.js). Each handler is a
    function from the store and the parts of the request it reads to the
    status code, the JSON body and the store it leaves behind. The checks run
    in the source's order, and every error path leaves the store as it was. */
module CardController {
  import opened Wrappers
  import opened JsStrings
  import opened JsValues
  import opened Validators
  import opened CardModel
  import opened CardService

  /** The JSON bodies the handlers send. */
  datatype Body =
    | ErrorBody(error: string, message: string)
    | CardBody(card: Card)
    | PageBody(page: Page)
    | DeletedBody(message: string, id: int)

  datatype Response = Response(status: int, body: Body)

  /** A response together with the store after the request. */
  datatype Handled = Handled(response: Response, store: Store)

  const BadRequest := "Bad Request"
  const NotFound := "Not Found"
  const DeletedMessage := "Card deleted successfully"

  /** The 404 message, with the id as JavaScript renders an integer. */
  function NotFoundMessage(id: int): string {
    "Card with ID " + IntToString(id) + " does not exist"
  }

  /** The 400 response carrying the given message. */
  function BadRequestResponse(message: string): Response {
    Response(400, ErrorBody(BadRequest, message))
  }

  /** `parseInt(x) || d`: NaN and zero are both falsy, so both give way to
      the default. */
  function OrDefault(parsed: IntOrNaN, d: int): (r: int)
    ensures parsed.Finite? && parsed.v != 0 ==> r == parsed.v
    ensures parsed.NaN? || parsed.v == 0 ==> r == d
  {
    if parsed.NaN? || parsed.v == 0 then d else parsed.v
  }

  /** The page or limit a query parameter yields, with its default: the
      number the parameter's text starts with, unless that is NaN or zero. */
  function QueryParam(q: QueryValue, d: int): (r: int)
    ensures ParseInt(QueryText(q)).Finite? && ParseInt(QueryText(q)).v != 0 ==> r == ParseInt(QueryText(q)).v
    ensures ParseInt(QueryText(q)).NaN? || ParseInt(QueryText(q)).v == 0 ==> r == d
    ensures r == 0 ==> d == 0
    ensures q.Absent? || q.Nested? ==> r == d
  {
    OrDefault(ParseInt(QueryText(q)), d)
  }

  /** The number of the card id in a path whose id has passed validation. */
  function PathId(idParam: string): int
    requires PositiveId(idParam)
  {
    ParseInt(idParam).v
  }

  /** GET /cards once the page and the limit are numbers: the pair is
      validated and either rejected with the messages joined by "; " or
      handed to the paginator. */
  function ListCards(s: Store, page: int, limit: int): (r: Response)
    ensures r.status == 200 <==> page >= 1 && 1 <= limit <= 100
    ensures r.status == 200 ==> r.body == PageBody(Paginate(s.cards, page, limit))
    ensures r.status != 200 ==> r.status == 400 && r.body.ErrorBody? && r.body.error == BadRequest
    ensures page < 1 && 1 <= limit <= 100 ==> r.body.message == PageError
    ensures page >= 1 && !(1 <= limit <= 100) ==> r.body.message == LimitError
    ensures page < 1 && !(1 <= limit <= 100) ==> r.body.message == PageError + "; " + LimitError
  {
    var validation := ValidatePaginationParams(Finite(page), Finite(limit));
    if !validation.valid then
      JoinShort(PageError, LimitError, "; ");
      JoinShort(LimitError, PageError, "; ");
      BadRequestResponse(Join(validation.errors, "; "))
    else
      Response(200, PageBody(Paginate(s.cards, page, limit)))
  }

  /** GET /cards. The page defaults to 1 and the limit to 10 when the query
      gives NaN or zero. */
  function GetCards(s: Store, pageQ: QueryValue, limitQ: QueryValue): (r: Response)
    ensures var page := QueryParam(pageQ, 1);
            var limit := QueryParam(limitQ, 10);
            && (r.status == 200 <==> page >= 1 && 1 <= limit <= 100)
            && (r.status == 200 ==> r.body == PageBody(Paginate(s.cards, page, limit)))
            && (r.status != 200 ==> r.status == 400 && r.body.ErrorBody? && r.body.error == BadRequest)
            && (page < 1 && 1 <= limit <= 100 ==> r.body.message == PageError)
            && (page >= 1 && !(1 <= limit <= 100) ==> r.body.message == LimitError)
            && (page < 1 && !(1 <= limit <= 100) ==> r.body.message == PageError + "; " + LimitError)
  {
    ListCards(s, QueryParam(pageQ, 1), QueryParam(limitQ, 10))
  }

  /** GET /cards/:id. A bad id is a 400, an unknown one a 404, and a known
      one gives the card. The store is only read. */
  function GetCardById(s: Store, idParam: string): (r: Response)
    ensures !PositiveId(idParam) ==> r == BadRequestResponse(IdError)
    ensures PositiveId(idParam) && PathId(idParam) !in Ids(s.cards) ==>
      r == Response(404, ErrorBody(NotFound, NotFoundMessage(PathId(idParam))))
    ensures PositiveId(idParam) && PathId(idParam) in Ids(s.cards) ==>
      && r.status == 200 && r.body.CardBody?
      && r.body.card.id == PathId(idParam) && r.body.card in s.cards
  {
    var validation := ValidateCardId(idParam);
    if !validation.valid then
      BadRequestResponse(validation.error.value)
    else
      var id := ParseInt(idParam).v;
      match CardService.GetCardById(s, id)
      case None => Response(404, ErrorBody(NotFound, NotFoundMessage(id)))
      case Some(card) => Response(200, CardBody(card))
  }

  /** The string of a card field of a body that passed creation validation. */
  function RequiredField(body: Value, k: nat): (r: string)
    requires k < 3 && FieldOk(body, CardFields[k], true)
    ensures Prop(body, CardFields[k]) == Str(r)
  {
    Prop(body, CardFields[k]).s
  }

  /** POST /cards. An invalid body is a 400 and adds nothing; a valid one
      adds a card made of the trimmed fields and answers 201 with it. */
  function CreateCard(s: Store, body: Value, createdAt: Timestamp, updatedAt: Timestamp): (r: Handled)
    ensures r.response.status == 201 <==> ValidateCardData(body, true).valid
    ensures r.response.status != 201 ==>
      && r.response == BadRequestResponse(Join(ValidateCardData(body, true).errors, "; "))
      && r.store == s
    ensures r.response.status == 201 ==>
      && r.response.body.CardBody?
      && var card := r.response.body.card;
      && card.id == s.nextId
      && r.store == Store(s.cards + [card], s.nextId + 1)
      && card.suit == Trim(RequiredField(body, 0))
      && card.value == Trim(RequiredField(body, 1))
      && card.collection == Trim(RequiredField(body, 2))
      && card.createdAt == Some(createdAt) && card.updatedAt == Some(updatedAt)
  {
    var validation := ValidateCardData(body, true);
    if !validation.valid then
      Handled(BadRequestResponse(Join(validation.errors, "; ")), s)
    else
      var data := CardData(
        Trim(RequiredField(body, 0)),
        Trim(RequiredField(body, 1)),
        Trim(RequiredField(body, 2)));
      var created := CardService.CreateCard(s, data, createdAt, updatedAt);
      Handled(Response(201, CardBody(created.card)), created.store)
  }

  /** The trimmed value of a field an update body supplies, `None` when the
      body leaves the field undefined. */
  function OptionalField(body: Value, k: nat): (r: Option<string>)
    requires k < 3 && FieldOk(body, CardFields[k], false)
    ensures r.None? <==> Prop(body, CardFields[k]) == Undefined
    ensures r.Some? ==> Prop(body, CardFields[k]).Str? && r.value == Trim(Prop(body, CardFields[k]).s)
  {
    var v := Prop(body, CardFields[k]);
    if v != Undefined then Some(Trim(v.s)) else None
  }

  /** The updates object built from a valid update body: only the supplied
      fields, trimmed, and never an id. */
  function UpdatesOf(body: Value): (p: Patch)
    requires ValidateCardData(body, false).valid
    ensures p.id.None?
  {
    Patch(None, OptionalField(body, 0), OptionalField(body, 1), OptionalField(body, 2))
  }

  /** PUT /cards/:id. A bad id is a 400; an unknown card is a 404 whatever
      the body; then an invalid body is a 400; otherwise the card at the same
      position gets the supplied fields, trimmed, and keeps its id, its other
      fields and its creation time. */
  function UpdateCard(s: Store, idParam: string, body: Value, now: Timestamp): (r: Handled)
    ensures r.response.status != 200 ==> r.store == s
    ensures !PositiveId(idParam) ==> r.response == BadRequestResponse(IdError)
    ensures PositiveId(idParam) ==>
      (r.response.status == 404 <==> PathId(idParam) !in Ids(s.cards))
    ensures r.response.status == 404 ==>
      r.response.body == ErrorBody(NotFound, NotFoundMessage(PathId(idParam)))
    ensures PositiveId(idParam) && PathId(idParam) in Ids(s.cards) ==>
      (r.response.status == 200 <==> ValidateCardData(body, false).valid)
    ensures PositiveId(idParam) && PathId(idParam) in Ids(s.cards) && !ValidateCardData(body, false).valid ==>
      r.response == BadRequestResponse(Join(ValidateCardData(body, false).errors, "; "))
    ensures r.response.status == 200 ==>
      var i := FindIndex(s.cards, PathId(idParam)).value;
      && |r.store.cards| == |s.cards| && r.store.nextId == s.nextId
      && r.response.body == CardBody(r.store.cards[i])
      && (forall j :: 0 <= j < |s.cards| && j != i ==> r.store.cards[j] == s.cards[j])
      && r.store.cards[i].id == s.cards[i].id
      && r.store.cards[i].createdAt == s.cards[i].createdAt
      && r.store.cards[i].updatedAt == Some(now)
      && (forall k :: 0 <= k < 3 ==> Prop(body, CardFields[k]) != Undefined ==>
            FieldOf(r.store.cards[i], k) == Trim(Prop(body, CardFields[k]).s))
      && (forall k :: 0 <= k < 3 ==> Prop(body, CardFields[k]) == Undefined ==>
            FieldOf(r.store.cards[i], k) == FieldOf(s.cards[i], k))
  {
    var idValidation := ValidateCardId(idParam);
    if !idValidation.valid then
      Handled(BadRequestResponse(idValidation.error.value), s)
    else
      var id := ParseInt(idParam).v;
      if CardService.GetCardById(s, id).None? then
        Handled(Response(404, ErrorBody(NotFound, NotFoundMessage(id))), s)
      else
        var validation := ValidateCardData(body, false);
        if !validation.valid then
          Handled(BadRequestResponse(Join(validation.errors, "; ")), s)
        else
          var updated := CardService.UpdateCard(s, id, UpdatesOf(body), now);
          UpdatedFields(s, id, body, now);
          Handled(Response(200, CardBody(updated.card.value)), updated.store)
  }

  /** The k-th card field of a card, in the order of CardFields. */
  function FieldOf(card: Card, k: nat): string
    requires k < 3
  {
    if k == 0 then card.suit else if k == 1 then card.value else card.collection
  }

  /** What the store's update does with the updates object of a valid body. */
  lemma UpdatedFields(s: Store, id: int, body: Value, now: Timestamp)
    requires id in Ids(s.cards)
    requires ValidateCardData(body, false).valid
    ensures var i := FindIndex(s.cards, id).value;
            var r := Update(s, id, UpdatesOf(body), now);
            && r.card == Some(r.store.cards[i])
            && r.store.cards[i].id == s.cards[i].id
            && (forall k :: 0 <= k < 3 ==> Prop(body, CardFields[k]) != Undefined ==>
                  FieldOf(r.store.cards[i], k) == Trim(Prop(body, CardFields[k]).s))
            && (forall k :: 0 <= k < 3 ==> Prop(body, CardFields[k]) == Undefined ==>
                  FieldOf(r.store.cards[i], k) == FieldOf(s.cards[i], k))
  {
    var i := FindIndex(s.cards, id).value;
    var merged := Merge(s.cards[i], UpdatesOf(body), now);
    assert Update(s, id, UpdatesOf(body), now).store.cards[i] == merged;
    forall k | 0 <= k < 3
      ensures FieldOf(merged, k) == match OptionalField(body, k)
                                    case Some(f) => f
                                    case None => FieldOf(s.cards[i], k)
    {
      MergedField(s.cards[i], body, now, k);
    }
  }

  /** The k-th field of a card merged with the updates of a valid body. */
  lemma MergedField(card: Card, body: Value, now: Timestamp, k: nat)
    requires ValidateCardData(body, false).valid
    requires k < 3
    ensures FieldOf(Merge(card, UpdatesOf(body), now), k)
         == match OptionalField(body, k)
            case Some(f) => f
            case None => FieldOf(card, k)
  {
  }

  /** DELETE /cards/:id. A bad id is a 400 and an unknown one a 404;
      otherwise the card is removed and its id echoed. */
  function DeleteCard(s: Store, idParam: string): (r: Handled)
    ensures r.response.status != 200 ==> r.store == s
    ensures !PositiveId(idParam) ==> r.response == BadRequestResponse(IdError)
    ensures PositiveId(idParam) && PathId(idParam) !in Ids(s.cards) ==>
      r.response == Response(404, ErrorBody(NotFound, NotFoundMessage(PathId(idParam))))
    ensures PositiveId(idParam) && PathId(idParam) in Ids(s.cards) ==>
      var i := FindIndex(s.cards, PathId(idParam)).value;
      && r.response == Response(200, DeletedBody(DeletedMessage, PathId(idParam)))
      && |r.store.cards| == |s.cards| - 1
      && (forall k :: 0 <= k < i ==> r.store.cards[k] == s.cards[k])
      && (forall k :: i <= k < |r.store.cards| ==> r.store.cards[k] == s.cards[k + 1])
      && r.store.nextId == s.nextId
  {
    var idValidation := ValidateCardId(idParam);
    if !idValidation.valid then
      Handled(BadRequestResponse(idValidation.error.value), s)
    else
      var id := ParseInt(idParam).v;
      if CardService.GetCardById(s, id).None? then
        Handled(Response(404, ErrorBody(NotFound, NotFoundMessage(id))), s)
      else
        var deleted := CardService.DeleteCard(s, id);
        Handled(Response(200, DeletedBody(DeletedMessage, id)), deleted.store)
  }

  /** `?page=0` is not rejected: zero is falsy, so it is read as page 1, the
      same as leaving the parameter out. The same holds of `?limit=0`, which
      gives the default of 10 cards rather than the limit message. */
  lemma ZeroQueryMeansDefault(s: Store, pageQ: QueryValue, limitQ: QueryValue)
    ensures GetCards(s, Text("0"), limitQ) == GetCards(s, Text("1"), limitQ)
    ensures GetCards(s, Text("0"), limitQ) == GetCards(s, Absent, limitQ)
    ensures GetCards(s, pageQ, Text("0")) == GetCards(s, pageQ, Text("10"))
    ensures GetCards(s, pageQ, Text("0")) == GetCards(s, pageQ, Absent)
  {
    QueryParamsOfLiterals(1);
    QueryParamsOfLiterals(10);
  }

  /** The numbers the query lemmas use, as query parameters. */
  lemma QueryParamsOfLiterals(d: int)
    ensures QueryParam(Absent, d) == d && QueryParam(Text("0"), d) == d
    ensures QueryParam(Text("1"), d) == 1 && QueryParam(Text("2"), d) == 2
    ensures QueryParam(Text("10"), d) == 10
    ensures QueryParam(Text("-1"), d) == -1 && QueryParam(Text("101"), d) == 101
  {
    QueryWithoutTextIsNaN(Absent);
    SmallNumerals();
    LargeNumerals();
  }

  /** parseInt of "0", "1" and "2". */
  lemma SmallNumerals()
    ensures ParseInt("0") == Finite(0) && ParseInt("1") == Finite(1) && ParseInt("2") == Finite(2)
  {
    ParseIntRoundTrip(0);
    ParseIntRoundTrip(1);
    ParseIntRoundTrip(2);
    assert IntToString(0) == "0" && IntToString(1) == "1" && IntToString(2) == "2";
  }

  /** parseInt of "10", "-1" and "101". */
  lemma LargeNumerals()
    ensures ParseInt("10") == Finite(10) && ParseInt("-1") == Finite(-1) && ParseInt("101") == Finite(101)
  {
    TenNumeral();
    ParseIntRoundTrip(-1);
    assert IntToString(-1) == "-1";
    ParseIntRoundTrip(101);
    assert NatToString(101) == NatToString(10) + [DigitChar(1)];
    assert IntToString(101) == "101";
  }

  /** The rendering of ten, and parseInt of it. */
  lemma TenNumeral()
    ensures NatToString(10) == "10" && ParseInt("10") == Finite(10)
  {
    ParseIntRoundTrip(10);
    assert NatToString(10) == NatToString(1) + [DigitChar(0)];
    assert IntToString(10) == "10";
  }

  /** A negative page and a limit above 100 are rejected with their
      messages. */
  lemma OutOfRangeQueriesRejected(s: Store)
    ensures GetCards(s, Text("-1"), Absent) == BadRequestResponse(PageError)
    ensures GetCards(s, Absent, Text("101")) == BadRequestResponse(LimitError)
    ensures GetCards(s, Text("-1"), Text("101")) == BadRequestResponse(PageError + "; " + LimitError)
  {
    QueryParamsOfLiterals(1);
    QueryParamsOfLiterals(10);
    assert GetCards(s, Text("-1"), Absent) == ListCards(s, -1, 10);
    assert GetCards(s, Absent, Text("101")) == ListCards(s, 1, 101);
    assert GetCards(s, Text("-1"), Text("101")) == ListCards(s, -1, 101);
  }

  /** The first page of two over the seed store holds its first two cards
      and links forward only. */
  lemma SeedFirstPage()
    ensures GetCards(Seed(), Text("1"), Text("2")) == Response(200, PageBody(Page(
      4, 2, 1, 2, 2, Seed().cards[..2], Some(Link(2, 2)), None)))
  {
    QueryParamsOfLiterals(1);
    QueryParamsOfLiterals(10);
    assert GetCards(Seed(), Text("1"), Text("2")) == ListCards(Seed(), 1, 2);
    SeedPaginate();
  }

  /** Page 1 of size 2 over the seed cards. */
  lemma SeedPaginate()
    ensures Paginate(Seed().cards, 1, 2) == Page(4, 2, 1, 2, 2, Seed().cards[..2], Some(Link(2, 2)), None)
  {
    var r := Paginate(Seed().cards, 1, 2);
    assert r.totalPages == 2;
    assert r.currentPage == 1;
  }

  /** A path id that is the rendering of a positive integer denotes it. */
  lemma RenderedPathId(n: int)
    requires n > 0
    ensures PositiveId(IntToString(n)) && PathId(IntToString(n)) == n
  {
    ParseIntRoundTrip(n);
  }

  /** A card created through the API is then served by GET under its id. */
  lemma CreateThenFetch(s: Store, body: Value, t1: Timestamp, t2: Timestamp)
    requires Valid(s) && s.nextId > 0
    requires ValidateCardData(body, true).valid
    ensures var h := CreateCard(s, body, t1, t2);
            GetCardById(h.store, IntToString(s.nextId)) == Response(200, h.response.body)
  {
    var h := CreateCard(s, body, t1, t2);
    var data := CardData(Trim(RequiredField(body, 0)), Trim(RequiredField(body, 1)), Trim(RequiredField(body, 2)));
    assert h.store == Create(s, data, t1, t2).store;
    CreateThenGet(s, data, t1, t2);
    RenderedPathId(s.nextId);
  }

  /** Deleting a card through the API answers 200 the first time and 404
      the second, and GET finds it no more. */
  lemma DeleteTwice(s: Store, n: int)
    requires Valid(s) && n > 0 && n in Ids(s.cards)
    ensures DeleteCard(s, IntToString(n)).response.status == 200
    ensures var s1 := DeleteCard(s, IntToString(n)).store;
            && DeleteCard(s1, IntToString(n)).response.status == 404
            && GetCardById(s1, IntToString(n)).status == 404
  {
    RenderedPathId(n);
    DeleteRemovesOnlyThatId(s, n);
  }

  /** The body that would recreate a card's fields. */
  function BodyOf(card: Card): Value {
    Obj(map["suit" := Str(card.suit), "value" := Str(card.value), "collection" := Str(card.collection)])
  }

  /** The fields of BodyOf are the card's. */
  lemma BodyOfFields(card: Card)
    ensures Prop(BodyOf(card), "suit") == Str(card.suit)
    ensures Prop(BodyOf(card), "value") == Str(card.value)
    ensures Prop(BodyOf(card), "collection") == Str(card.collection)
  {
    var m := BodyOf(card).props;
    assert "suit" in m && "value" in m && "collection" in m;
  }

  /** A field that trimming leaves as it is and that is not empty. */
  predicate Trimmed(f: string) {
    f != "" && Trim(f) == f
  }

  /** The fields a created card stores are trimmed and non-blank. */
  lemma CreatedFieldsTrimmed(s: Store, body: Value, t1: Timestamp, t2: Timestamp)
    requires CreateCard(s, body, t1, t2).response.status == 201
    ensures var card := CreateCard(s, body, t1, t2).response.body.card;
            Trimmed(card.suit) && Trimmed(card.value) && Trimmed(card.collection)
  {
    TrimIdempotent(RequiredField(body, 0));
    TrimIdempotent(RequiredField(body, 1));
    TrimIdempotent(RequiredField(body, 2));
  }

  /** Sending a card with trimmed fields as a creation body is accepted and
      stores the same fields. */
  lemma TrimmedFieldsRecreate(card: Card, s: Store, t1: Timestamp, t2: Timestamp)
    requires Trimmed(card.suit) && Trimmed(card.value) && Trimmed(card.collection)
    ensures var again := CreateCard(s, BodyOf(card), t1, t2);
            && again.response.status == 201
            && again.response.body.card.suit == card.suit
            && again.response.body.card.value == card.value
            && again.response.body.card.collection == card.collection
  {
    var b := BodyOf(card);
    BodyOfFields(card);
    assert AllFieldsOk(b, true) by {
      assert FieldOk(b, CardFields[0], true);
      assert FieldOk(b, CardFields[1], true);
      assert FieldOk(b, CardFields[2], true);
    }
  }

  /** A created card's fields, sent back as a creation body, are accepted
      and stored unchanged. */
  lemma CreatedFieldsRoundTrip(s: Store, body: Value, t1: Timestamp, t2: Timestamp,
                               s': Store, t1': Timestamp, t2': Timestamp)
    requires CreateCard(s, body, t1, t2).response.status == 201
    ensures var card := CreateCard(s, body, t1, t2).response.body.card;
            var again := CreateCard(s', BodyOf(card), t1', t2');
            && again.response.status == 201
            && again.response.body.card.suit == card.suit
            && again.response.body.card.value == card.value
            && again.response.body.card.collection == card.collection
  {
    var card := CreateCard(s, body, t1, t2).response.body.card;
    CreatedFieldsTrimmed(s, body, t1, t2);
    TrimmedFieldsRecreate(card, s', t1', t2');
  }

  /** One API request, with the clock readings the handler takes. */
  datatype Request =
    | ListReq(page: QueryValue, limit: QueryValue)
    | GetReq(id: string)
    | CreateReq(body: Value, createdAt: Timestamp, updatedAt: Timestamp)
    | UpdateReq(id: string, body: Value, now: Timestamp)
    | DeleteReq(id: string)

  /** The handler the route table sends a request to. The two GET routes
      leave the store as it is. */
  function Serve(s: Store, req: Request): (r: Handled)
    ensures req.ListReq? || req.GetReq? ==> r.store == s
    ensures req.CreateReq? ==> r.store.nextId == s.nextId + (if r.response.status == 201 then 1 else 0)
    ensures req.UpdateReq? || req.DeleteReq? ==> r.store.nextId == s.nextId
  {
    match req
    case ListReq(page, limit) => Handled(GetCards(s, page, limit), s)
    case GetReq(id) => Handled(GetCardById(s, id), s)
    case CreateReq(body, t1, t2) => CreateCard(s, body, t1, t2)
    case UpdateReq(id, body, now) => UpdateCard(s, id, body, now)
    case DeleteReq(id) => DeleteCard(s, id)
  }

  /** The store after serving the requests in order. */
  function ServeAll(s: Store, reqs: seq<Request>): Store
    decreases |reqs|
  {
    if |reqs| == 0 then s else ServeAll(Serve(s, reqs[0]).store, reqs[1..])
  }

  /** Every card of `s2` either was in `s1` or has an id at or above the
      counter of `s1`. */
  predicate NoNewIdsBelow(s1: Store, s2: Store) {
    forall i :: 0 <= i < |s2.cards| ==> s2.cards[i].id in Ids(s1.cards) || s2.cards[i].id >= s1.nextId
  }

  /** What a request may do to the store: keep the invariant, never move
      the counter back, and bring in no id below the counter it found. */
  predicate SafeStep(s: Store, s': Store) {
    Valid(s') && s'.nextId >= s.nextId && NoNewIdsBelow(s, s')
  }

  /** POST keeps the store safe. */
  lemma CreateStep(s: Store, body: Value, t1: Timestamp, t2: Timestamp)
    requires Valid(s)
    ensures SafeStep(s, CreateCard(s, body, t1, t2).store)
  {
    var s' := CreateCard(s, body, t1, t2).store;
    if ValidateCardData(body, true).valid {
      var data := CardData(Trim(RequiredField(body, 0)), Trim(RequiredField(body, 1)), Trim(RequiredField(body, 2)));
      assert s' == Create(s, data, t1, t2).store;
      CreatePreservesValid(s, data, t1, t2);
      assert Ids(s'.cards) == Ids(s.cards) + [s.nextId];
    }
  }

  /** PUT keeps the store safe: it never sets an id, so the ids stay as
      they were. */
  lemma UpdateStep(s: Store, idParam: string, body: Value, now: Timestamp)
    requires Valid(s)
    ensures SafeStep(s, UpdateCard(s, idParam, body, now).store)
    ensures Ids(UpdateCard(s, idParam, body, now).store.cards) == Ids(s.cards)
  {
    var s' := UpdateCard(s, idParam, body, now).store;
    if s' != s {
      var id := PathId(idParam);
      assert s' == Update(s, id, UpdatesOf(body), now).store;
      UpdatePreservesValid(s, id, UpdatesOf(body), now);
      UpdateKeepsIds(s, id, UpdatesOf(body), now);
    }
  }

  /** DELETE keeps the store safe, and every id left was there before. */
  lemma DeleteStep(s: Store, idParam: string)
    requires Valid(s)
    ensures SafeStep(s, DeleteCard(s, idParam).store)
    ensures var s' := DeleteCard(s, idParam).store;
            forall k :: 0 <= k < |s'.cards| ==> s'.cards[k].id in Ids(s.cards)
  {
    var s' := DeleteCard(s, idParam).store;
    if s' != s {
      var id := PathId(idParam);
      assert s' == Delete(s, id).store;
      DeletePreservesValid(s, id);
      forall k | 0 <= k < |s'.cards|
        ensures s'.cards[k].id in Ids(s.cards)
      {
        DeleteRemovesOnlyThatIdKeepsFrom(s, id, k);
      }
    }
  }

  /** Every request keeps the store invariant, never moves the counter
      back, and brings in no id below the counter it found. */
  lemma ServeStep(s: Store, req: Request)
    requires Valid(s)
    ensures Valid(Serve(s, req).store)
    ensures Serve(s, req).store.nextId >= s.nextId
    ensures NoNewIdsBelow(s, Serve(s, req).store)
  {
    match req
    case ListReq(_, _) =>
    case GetReq(_) =>
    case CreateReq(body, t1, t2) => CreateStep(s, body, t1, t2);
    case UpdateReq(idParam, body, now) => UpdateStep(s, idParam, body, now);
    case DeleteReq(idParam) => DeleteStep(s, idParam);
  }

  /** Any run of requests keeps the invariant and brings in no id below the
      counter it started from. */
  lemma {:induction false} ServeAllStep(s: Store, reqs: seq<Request>)
    requires Valid(s)
    ensures Valid(ServeAll(s, reqs))
    ensures ServeAll(s, reqs).nextId >= s.nextId
    ensures NoNewIdsBelow(s, ServeAll(s, reqs))
    decreases |reqs|
  {
    if |reqs| > 0 {
      var s1 := Serve(s, reqs[0]).store;
      ServeStep(s, reqs[0]);
      ServeAllStep(s1, reqs[1..]);
      var s2 := ServeAll(s1, reqs[1..]);
      forall i | 0 <= i < |s2.cards|
        ensures s2.cards[i].id in Ids(s.cards) || s2.cards[i].id >= s.nextId
      {
        if s2.cards[i].id in Ids(s1.cards) {
          var j :| 0 <= j < |s1.cards| && s1.cards[j].id == s2.cards[i].id;
          assert s1.cards[j].id in Ids(s.cards) || s1.cards[j].id >= s.nextId;
        }
      }
    }
  }

  /** Once DELETE has removed a card, no later sequence of requests brings
      its id back: GET answers 404 for it from then on. */
  lemma DeletedCardStaysGone(s: Store, n: int, reqs: seq<Request>)
    requires Valid(s) && n > 0 && n in Ids(s.cards)
    ensures var s1 := DeleteCard(s, IntToString(n)).store;
            GetCardById(ServeAll(s1, reqs), IntToString(n)).status == 404
  {
    RenderedPathId(n);
    var s1 := DeleteCard(s, IntToString(n)).store;
    assert s1 == Delete(s, n).store;
    DeletePreservesValid(s, n);
    DeleteRemovesOnlyThatId(s, n);
    assert n < s1.nextId;
    ServeAllStep(s1, reqs);
  }
}

=== FILE: card_model.dfy ===
/** The in-memory card store (models/card.model.js): an ordered list of card
    records and the counter that hands out the next id. The store is a value
    here; each operation returns the store it leaves behind. */
module CardModel {
  import opened Wrappers

  /** A timestamp as `new Date().toISOString()` renders it. The clock is not
      modelled: the operations that stamp a card receive the reading. */
  type Timestamp = string

  /** A stored card. The seed cards carry no timestamps. */
  datatype Card = Card(
    id: int,
    suit: string,
    value: string,
    collection: string,
    createdAt: Option<Timestamp>,
    updatedAt: Option<Timestamp>)

  /** The fields a new card is made from. */
  datatype CardData = CardData(suit: string, value: string, collection: string)

  /** The properties an update spreads over a card; `None` marks a property
      the update object does not have. */
  datatype Patch = Patch(
    id: Option<int>,
    suit: Option<string>,
    value: Option<string>,
    collection: Option<string>)

  datatype Store = Store(cards: seq<Card>, nextId: int)

  /** The ids of the cards, in list order. */
  function Ids(cards: seq<Card>): (ids: seq<int>)
    ensures |ids| == |cards|
    ensures forall i :: 0 <= i < |cards| ==> ids[i] == cards[i].id
  {
    seq(|cards|, i requires 0 <= i < |cards| => cards[i].id)
  }

  /** Ids strictly increase along the list, hence no two cards share one. */
  predicate IdsIncreasing(cards: seq<Card>) {
    forall i, j :: 0 <= i < j < |cards| ==> cards[i].id < cards[j].id
  }

  /** The store invariant: ids increase along the list and all lie below
      the counter, so the counter never hands out an id in use. */
  predicate Valid(s: Store) {
    && IdsIncreasing(s.cards)
    && forall i :: 0 <= i < |s.cards| ==> s.cards[i].id < s.nextId
  }

  /** The four seed cards and the first id the counter hands out. */
  function Seed(): (s: Store)
    ensures Valid(s)
    ensures |s.cards| == 4 && s.nextId == 171836785996
  {
    Store(
      [ Card(171836785992, "diamonds", "queen", "royal", None, None),
        Card(171836785993, "hearts", "king", "royal", None, None),
        Card(171836785994, "clubs", "ace", "classic", None, None),
        Card(171836785995, "spades", "jack", "classic", None, None)],
      171836785996)
  }

  /** `cards.findIndex(card => card.id === id)`: the first position holding
      the id, or `None` (the source's -1) when no card has it. */
  function FindIndex(cards: seq<Card>, id: int): (r: Option<nat>)
    ensures r.None? <==> id !in Ids(cards)
    ensures r.Some? ==> r.value < |cards| && cards[r.value].id == id
    ensures r.Some? ==> forall j :: 0 <= j < r.value ==> cards[j].id != id
  {
    if |cards| == 0 then None
    else if cards[0].id == id then Some(0)
    else
      match FindIndex(cards[1..], id)
      case None => None
      case Some(k) => Some(k + 1)
  }

  /** In a valid store an id sits at one position only. */
  lemma IdPositionUnique(s: Store, i: int, j: int)
    requires Valid(s)
    requires 0 <= i < |s.cards| && 0 <= j < |s.cards|
    requires s.cards[i].id == s.cards[j].id
    ensures i == j
  {
  }

  /** getById(id): the first card carrying the id, absent when none does. */
  function GetById(s: Store, id: int): (r: Option<Card>)
    ensures r.Some? <==> id in Ids(s.cards)
    ensures r.Some? ==> r.value.id == id && r.value in s.cards
    ensures r.Some? ==> exists i :: 0 <= i < |s.cards| && s.cards[i] == r.value
                                    && forall j :: 0 <= j < i ==> s.cards[j].id != id
  {
    match FindIndex(s.cards, id)
    case None => None
    case Some(i) => Some(s.cards[i])
  }

  /** The result of create(cardData): the new store and the new card. */
  datatype Created = Created(store: Store, card: Card)

  /** create(cardData): the card takes the counter's value as its id and is
      appended; the counter moves on by one. `createdAt` and `updatedAt` are
      two separate clock readings. */
  function Create(s: Store, data: CardData, createdAt: Timestamp, updatedAt: Timestamp): (r: Created)
    ensures r.card.id == s.nextId && r.store.nextId == s.nextId + 1
    ensures |r.store.cards| == |s.cards| + 1
    ensures r.store.cards[..|s.cards|] == s.cards && r.store.cards[|s.cards|] == r.card
    ensures r.card.suit == data.suit && r.card.value == data.value
         && r.card.collection == data.collection
    ensures r.card.createdAt == Some(createdAt) && r.card.updatedAt == Some(updatedAt)
  {
    var card := Card(s.nextId, data.suit, data.value, data.collection, Some(createdAt), Some(updatedAt));
    Created(Store(s.cards + [card], s.nextId + 1), card)
  }

  /** `{ ...card, ...patch, updatedAt: now }`. */
  function Merge(card: Card, patch: Patch, now: Timestamp): (r: Card)
    ensures r.id == (if patch.id.Some? then patch.id.value else card.id)
    ensures r.suit == (if patch.suit.Some? then patch.suit.value else card.suit)
    ensures r.value == (if patch.value.Some? then patch.value.value else card.value)
    ensures r.collection == (if patch.collection.Some? then patch.collection.value else card.collection)
    ensures r.createdAt == card.createdAt && r.updatedAt == Some(now)
  {
    Card(
      patch.id.GetOr(card.id),
      patch.suit.GetOr(card.suit),
      patch.value.GetOr(card.value),
      patch.collection.GetOr(card.collection),
      card.createdAt,
      Some(now))
  }

  /** Spreading the same updates again at the same time changes nothing. */
  lemma MergeIdempotent(card: Card, patch: Patch, now: Timestamp)
    ensures Merge(Merge(card, patch, now), patch, now) == Merge(card, patch, now)
  {
  }

  /** The result of update(id, updates): the new store and the updated card,
      or `None` for the source's null. */
  datatype Updated = Updated(store: Store, card: Option<Card>)

  /** update(id, updates): an unknown id changes nothing and gives `None`;
      otherwise the first card with the id is replaced in place by the card
      with the supplied properties overriding its own and a fresh
      `updatedAt`, and every other card stays as it was. */
  function Update(s: Store, id: int, patch: Patch, now: Timestamp): (r: Updated)
    ensures id !in Ids(s.cards) ==> r == Updated(s, None)
    ensures |r.store.cards| == |s.cards| && r.store.nextId == s.nextId
    ensures id in Ids(s.cards) ==>
      var i := FindIndex(s.cards, id).value;
      var old_card := s.cards[i];
      var new_card := r.store.cards[i];
      && r.card == Some(new_card)
      && (forall j :: 0 <= j < |s.cards| && j != i ==> r.store.cards[j] == s.cards[j])
      && new_card.id == (if patch.id.Some? then patch.id.value else old_card.id)
      && new_card.suit == (if patch.suit.Some? then patch.suit.value else old_card.suit)
      && new_card.value == (if patch.value.Some? then patch.value.value else old_card.value)
      && new_card.collection ==
           (if patch.collection.Some? then patch.collection.value else old_card.collection)
      && new_card.createdAt == old_card.createdAt
      && new_card.updatedAt == Some(now)
  {
    match FindIndex(s.cards, id)
    case None => Updated(s, None)
    case Some(i) =>
      var card := Merge(s.cards[i], patch, now);
      Updated(Store(s.cards[i := card], s.nextId), Some(card))
  }

  /** The result of delete(id): the new store and whether a card went. */
  datatype Deleted = Deleted(store: Store, removed: bool)

  /** delete(id): an unknown id changes nothing and gives false; otherwise
      the first card with the id is spliced out, the others keep their
      order, and the counter is left alone. */
  function Delete(s: Store, id: int): (r: Deleted)
    ensures r.removed <==> id in Ids(s.cards)
    ensures !r.removed ==> r.store == s
    ensures r.store.nextId == s.nextId
    ensures r.removed ==>
      var i := FindIndex(s.cards, id).value;
      && |r.store.cards| == |s.cards| - 1
      && (forall k :: 0 <= k < i ==> r.store.cards[k] == s.cards[k])
      && (forall k :: i <= k < |r.store.cards| ==> r.store.cards[k] == s.cards[k + 1])
  {
    match FindIndex(s.cards, id)
    case None => Deleted(s, false)
    case Some(i) => Deleted(Store(RemoveAt(s.cards, i), s.nextId), true)
  }

  /** The list without its i-th element: `splice(i, 1)`. */
  function RemoveAt(cards: seq<Card>, i: nat): (r: seq<Card>)
    requires i < |cards|
    ensures |r| == |cards| - 1
    ensures forall k :: 0 <= k < i ==> r[k] == cards[k]
    ensures forall k :: i <= k < |r| ==> r[k] == cards[k + 1]
  {
    cards[..i] + cards[i + 1..]
  }

  /** The set of ids in use. */
  function IdSet(cards: seq<Card>): (r: set<int>)
    ensures forall x :: x in r <==> x in Ids(cards)
  {
    if |cards| == 0 then {}
    else
      var init := cards[..|cards| - 1];
      assert Ids(cards) == Ids(init) + [cards[|cards| - 1].id];
      IdSet(init) + {cards[|cards| - 1].id}
  }

  /** getCount(). In a valid store no two cards share an id, so the count is
      also the number of ids in use. */
  function Count(s: Store): (r: nat)
    ensures Valid(s) ==> r == |IdSet(s.cards)|
  {
    DistinctIdsCount(s.cards);
    |s.cards|
  }

  /** A list with increasing ids has as many ids as cards. */
  lemma {:induction false} DistinctIdsCount(cards: seq<Card>)
    ensures IdsIncreasing(cards) ==> |IdSet(cards)| == |cards|
  {
    if |cards| > 0 && IdsIncreasing(cards) {
      var init := cards[..|cards| - 1];
      var last := cards[|cards| - 1];
      assert IdsIncreasing(init);
      DistinctIdsCount(init);
      assert last.id !in IdSet(init) by {
        forall k | 0 <= k < |init|
          ensures Ids(init)[k] != last.id
        {
          assert init[k] == cards[k];
        }
      }
    }
  }

  /** The count follows the operations: create adds one, delete of a present
      id removes one, update keeps it. */
  lemma CountAfterOperations(s: Store, id: int, data: CardData, patch: Patch, t1: Timestamp, t2: Timestamp)
    ensures Count(Create(s, data, t1, t2).store) == Count(s) + 1
    ensures Count(Update(s, id, patch, t1).store) == Count(s)
    ensures Count(Delete(s, id).store) == if id in Ids(s.cards) then Count(s) - 1 else Count(s)
  {
  }

  /** Create keeps the invariant, and the new card has the largest id. */
  lemma CreatePreservesValid(s: Store, data: CardData, t1: Timestamp, t2: Timestamp)
    requires Valid(s)
    ensures Valid(Create(s, data, t1, t2).store)
    ensures forall c :: c in s.cards ==> c.id < Create(s, data, t1, t2).card.id
  {
    var r := Create(s, data, t1, t2);
    forall i, j | 0 <= i < j < |r.store.cards|
      ensures r.store.cards[i].id < r.store.cards[j].id
    {
      if j < |s.cards| {
        assert r.store.cards[i] == s.cards[i] && r.store.cards[j] == s.cards[j];
      } else {
        assert r.store.cards[i] == s.cards[i];
      }
    }
  }

  /** A created card can be read back by its id. */
  lemma CreateThenGet(s: Store, data: CardData, t1: Timestamp, t2: Timestamp)
    requires Valid(s)
    ensures var r := Create(s, data, t1, t2);
            GetById(r.store, r.card.id) == Some(r.card)
  {
    var r := Create(s, data, t1, t2);
    CreatePreservesValid(s, data, t1, t2);
    var i := FindIndex(r.store.cards, r.card.id).value;
    IdPositionUnique(r.store, i, |s.cards|);
  }

  /** An update that does not set `id` keeps every id in place. */
  lemma UpdateKeepsIds(s: Store, id: int, patch: Patch, now: Timestamp)
    requires patch.id.None?
    ensures Ids(Update(s, id, patch, now).store.cards) == Ids(s.cards)
    ensures Update(s, id, patch, now).store.nextId == s.nextId
  {
  }

  /** An update that does not set `id` keeps the invariant. */
  lemma UpdatePreservesValid(s: Store, id: int, patch: Patch, now: Timestamp)
    requires Valid(s)
    requires patch.id.None?
    ensures Valid(Update(s, id, patch, now).store)
  {
    var r := Update(s, id, patch, now);
    UpdateKeepsIds(s, id, patch, now);
    assert forall i :: 0 <= i < |s.cards| ==> r.store.cards[i].id == Ids(r.store.cards)[i];
  }

  /** Delete keeps the invariant. */
  lemma DeletePreservesValid(s: Store, id: int)
    requires Valid(s)
    ensures Valid(Delete(s, id).store)
  {
    var r := Delete(s, id);
    if r.removed {
      var i := FindIndex(s.cards, id).value;
      forall a, b | 0 <= a < b < |r.store.cards|
        ensures r.store.cards[a].id < r.store.cards[b].id
      {
        var a' := if a < i then a else a + 1;
        var b' := if b < i then b else b + 1;
        assert r.store.cards[a] == s.cards[a'] && r.store.cards[b] == s.cards[b'];
      }
    }
  }

  /** In a valid store, delete removes the id altogether and keeps every card
      with another id. */
  lemma DeleteRemovesOnlyThatId(s: Store, id: int)
    requires Valid(s)
    ensures id !in Ids(Delete(s, id).store.cards)
    ensures forall c :: c in s.cards && c.id != id ==> c in Delete(s, id).store.cards
  {
    var r := Delete(s, id);
    if r.removed {
      var i := FindIndex(s.cards, id).value;
      forall k | 0 <= k < |r.store.cards|
        ensures r.store.cards[k].id != id
      {
        var k' := if k < i then k else k + 1;
        assert r.store.cards[k] == s.cards[k'];
        assert k' != i;
        assert s.cards[k'].id != id by {
          if s.cards[k'].id == id {
            IdPositionUnique(s, i, k');
          }
        }
      }
      forall c | c in s.cards && c.id != id
        ensures c in r.store.cards
      {
        var k :| 0 <= k < |s.cards| && s.cards[k] == c;
        if k < i {
          assert r.store.cards[k] == c;
        } else {
          assert k != i;
          assert r.store.cards[k - 1] == c;
        }
      }
    }
  }

  /** One store operation, with the clock readings it takes. */
  datatype Op =
    | CreateOp(data: CardData, createdAt: Timestamp, updatedAt: Timestamp)
    | UpdateOp(id: int, patch: Patch, now: Timestamp)
    | DeleteOp(id: int)

  function Apply(s: Store, op: Op): Store {
    match op
    case CreateOp(data, t1, t2) => Create(s, data, t1, t2).store
    case UpdateOp(id, patch, now) => Update(s, id, patch, now).store
    case DeleteOp(id) => Delete(s, id).store
  }

  /** The store after the operations, in order. */
  function Run(s: Store, ops: seq<Op>): Store
    decreases |ops|
  {
    if |ops| == 0 then s else Run(Apply(s, ops[0]), ops[1..])
  }

  /** None of the updates sets `id` (the controller never does). */
  predicate NoIdPatches(ops: seq<Op>) {
    forall k :: 0 <= k < |ops| ==> ops[k].UpdateOp? ==> ops[k].patch.id.None?
  }

  /** An id below the counter that no card carries stays unused through any
      run of operations whose updates do not set `id`; the invariant holds
      throughout and the counter never goes back. */
  lemma {:induction false} RunNeverReusesIds(s: Store, ops: seq<Op>, gone: int)
    requires Valid(s)
    requires NoIdPatches(ops)
    requires gone < s.nextId && gone !in Ids(s.cards)
    ensures Valid(Run(s, ops))
    ensures Run(s, ops).nextId >= s.nextId
    ensures gone !in Ids(Run(s, ops).cards)
    decreases |ops|
  {
    if |ops| > 0 {
      var s' := Apply(s, ops[0]);
      match ops[0] {
      case CreateOp(data, t1, t2) =>
        assert s' == Create(s, data, t1, t2).store;
        CreatePreservesValid(s, data, t1, t2);
        assert Ids(s'.cards) == Ids(s.cards) + [s.nextId];
      case UpdateOp(id, patch, now) =>
        assert ops[0].patch.id.None?;
        UpdatePreservesValid(s, id, patch, now);
        UpdateKeepsIds(s, id, patch, now);
      case DeleteOp(id) =>
        DeletePreservesValid(s, id);
        if gone in Ids(s'.cards) {
          var k :| 0 <= k < |s'.cards| && s'.cards[k].id == gone;
          DeleteRemovesOnlyThatIdKeepsFrom(s, id, k);
        }
      }
      assert NoIdPatches(ops[1..]) by {
        forall k | 0 <= k < |ops| - 1 ensures ops[1..][k] == ops[k + 1] { }
      }
      RunNeverReusesIds(s', ops[1..], gone);
    }
  }

  /** Every card left by delete was in the store before. */
  lemma DeleteRemovesOnlyThatIdKeepsFrom(s: Store, id: int, k: int)
    requires 0 <= k < |Delete(s, id).store.cards|
    ensures Delete(s, id).store.cards[k] in s.cards
  {
    var r := Delete(s, id);
    if r.removed {
      var i := FindIndex(s.cards, id).value;
      assert r.store.cards[k] == s.cards[if k < i then k else k + 1];
    }
  }

  /** Once deleted, an id is never handed out or seen again. */
  lemma DeletedIdNeverReturns(s: Store, id: int, ops: seq<Op>)
    requires Valid(s)
    requires id in Ids(s.cards)
    requires NoIdPatches(ops)
    ensures id !in Ids(Run(Delete(s, id).store, ops).cards)
  {
    DeletePreservesValid(s, id);
    DeleteRemovesOnlyThatId(s, id);
    var i :| 0 <= i < |s.cards| && s.cards[i].id == id;
    RunNeverReusesIds(Delete(s, id).store, ops, id);
  }
}

=== FILE: card_service.dfy ===
/** The card service (services/card.service.js): pagination over the store,
    and the pass-throughs the controller reaches the store by. */
module CardService {
  import opened Wrappers
  import opened CardModel

  /** `{ page, limit }`, the query of a neighbouring page. */
  datatype Link = Link(page: int, limit: int)

  /** The object getPaginatedCards returns. */
  datatype Page = Page(
    totalCards: nat,
    totalPages: nat,
    currentPage: int,
    limit: int,
    count: nat,
    cards: seq<Card>,
    next: Option<Link>,
    previous: Option<Link>)

  function Min(a: int, b: int): int { if a <= b then a else b }
  function Max(a: int, b: int): int { if a >= b then a else b }

  /** `Math.ceil(totalCards / limit) || 1`: the fewest pages of `limit`
      cards that hold every card, and one page when there are none. */
  function TotalPages(total: nat, limit: int): (r: nat)
    requires limit >= 1
    ensures r >= 1
    ensures total <= r * limit
    ensures r == 1 || (r - 1) * limit < total
  {
    var q := (total + limit - 1) / limit;
    assert q * limit <= total + limit - 1 < (q + 1) * limit;
    if q == 0 then 1 else q
  }

  /** The index of the first card of page `p`. */
  function PageStart(p: int, limit: int): int {
    (p - 1) * limit
  }

  /** `all.slice(start, end)` for non-negative bounds: both are cut back to
      the length, and an end before the start gives nothing. */
  function Slice(all: seq<Card>, start: nat, end: nat): (r: seq<Card>)
    ensures |r| == Max(0, Min(end, |all|) - Min(start, |all|))
    ensures forall i :: 0 <= i < |r| ==> r[i] == all[start + i]
  {
    var e := Min(end, |all|);
    var b := Min(start, e);
    all[b..e]
  }

  /** Multiplying by a non-negative number keeps the order. */
  lemma MulMonotone(a: int, b: int, c: int)
    requires a <= b && c >= 0
    ensures a * c <= b * c
  {
    assert b * c - a * c == (b - a) * c;
  }

  /** Page `p` of size `limit` starts inside the list, for every page from 1
      up to the page count. */
  lemma PageStartInRange(total: nat, p: int, limit: int)
    requires limit >= 1
    requires 1 <= p <= TotalPages(total, limit)
    ensures 0 <= PageStart(p, limit) <= total
    ensures p < TotalPages(total, limit) ==> PageStart(p, limit) + limit < total
    ensures total > 0 ==> PageStart(p, limit) < total
  {
    var t := TotalPages(total, limit);
    MulMonotone(0, p - 1, limit);
    if t > 1 {
      MulMonotone(p - 1, t - 1, limit);
      if p < t {
        MulMonotone(p, t - 1, limit);
        assert PageStart(p, limit) + limit == p * limit;
      }
    }
  }

  /** getPaginatedCards(page, limit). The page is clamped into
      1..totalPages; the cards are the ones from the clamped page's first
      index on, at most `limit` of them; the links point at the neighbouring
      pages that exist. The limit must be at least 1: the controller only
      calls with a validated limit, and a zero limit divides by zero. */
  function Paginate(all: seq<Card>, page: int, limit: int): (r: Page)
    requires limit >= 1
    ensures r.totalCards == |all| && r.limit == limit
    ensures r.totalPages >= 1
    ensures |all| <= r.totalPages * limit
    ensures r.totalPages == 1 || (r.totalPages - 1) * limit < |all|
    ensures 1 <= r.currentPage <= r.totalPages
    ensures 1 <= page <= r.totalPages ==> r.currentPage == page
    ensures page < 1 ==> r.currentPage == 1
    ensures page >= r.totalPages ==> r.currentPage == r.totalPages && r.next.None?
    ensures 0 <= PageStart(r.currentPage, limit) <= |all|
    ensures r.cards == all[PageStart(r.currentPage, limit)..Min(PageStart(r.currentPage, limit) + limit, |all|)]
    ensures r.count == |r.cards| <= limit
    ensures r.currentPage < r.totalPages ==> r.count == limit
    ensures r.cards == [] <==> all == []
    ensures r.next.Some? <==> r.currentPage < r.totalPages
    ensures r.next.Some? ==> r.next.value == Link(r.currentPage + 1, limit)
    ensures r.previous.Some? <==> r.currentPage > 1
    ensures r.previous.Some? ==> r.previous.value == Link(r.currentPage - 1, limit)
  {
    var totalPages := TotalPages(|all|, limit);
    var validPage := Max(1, Min(page, totalPages));
    PageStartInRange(|all|, validPage, limit);
    var start := PageStart(validPage, limit);
    var cards := Slice(all, start, start + limit);
    assert cards == all[start..Min(start + limit, |all|)];
    Page(
      |all|,
      totalPages,
      validPage,
      limit,
      |cards|,
      cards,
      if validPage < totalPages then Some(Link(validPage + 1, limit)) else None,
      if validPage > 1 then Some(Link(validPage - 1, limit)) else None)
  }

  /** The cards of pages `p` to the last, one page after another. */
  function PagesFrom(all: seq<Card>, p: nat, limit: int): seq<Card>
    requires limit >= 1
    decreases TotalPages(|all|, limit) + 1 - p
  {
    if p < 1 || p > TotalPages(|all|, limit) then []
    else Paginate(all, p, limit).cards + PagesFrom(all, p + 1, limit)
  }

  /** Page `p` is the window of the list from its first index, and the
      next page starts where it stops. */
  lemma PageWindow(all: seq<Card>, p: nat, limit: int)
    requires limit >= 1
    requires 1 <= p <= TotalPages(|all|, limit)
    ensures 0 <= PageStart(p, limit) <= Min(PageStart(p + 1, limit), |all|) <= |all|
    ensures PageStart(p + 1, limit) == PageStart(p, limit) + limit
    ensures Paginate(all, p, limit).cards
         == all[PageStart(p, limit)..Min(PageStart(p + 1, limit), |all|)]
  {
    PageStartInRange(|all|, p, limit);
  }

  /** Past the last page there is nothing left: the pages cover the list. */
  lemma PastLastPage(all: seq<Card>, limit: int)
    requires limit >= 1
    ensures PageStart(TotalPages(|all|, limit) + 1, limit) >= |all|
    ensures PagesFrom(all, TotalPages(|all|, limit) + 1, limit) == []
  {
  }

  /** The pages from `p` on are the window of page p followed by the pages
      after it. */
  lemma PagesFromStep(all: seq<Card>, p: nat, limit: int)
    requires limit >= 1
    requires 1 <= p <= TotalPages(|all|, limit)
    ensures 0 <= PageStart(p, limit) <= Min(PageStart(p + 1, limit), |all|) <= |all|
    ensures PagesFrom(all, p, limit)
         == all[PageStart(p, limit)..Min(PageStart(p + 1, limit), |all|)] + PagesFrom(all, p + 1, limit)
  {
    PageWindow(all, p, limit);
  }

  /** A suffix is a window followed by the suffix after it. */
  lemma SuffixSplit(all: seq<Card>, a: int, b: int)
    requires 0 <= a <= b <= |all|
    ensures all[a..] == all[a..b] + all[b..]
  {
  }

  /** Pages `p` onwards hold exactly the cards from page p's first index on. */
  lemma {:induction false} PagesFromSuffix(all: seq<Card>, p: nat, limit: int)
    requires limit >= 1
    requires 1 <= p <= TotalPages(|all|, limit) + 1
    ensures PageStart(p, limit) >= 0
    ensures PagesFrom(all, p, limit) == all[Min(PageStart(p, limit), |all|)..]
    decreases TotalPages(|all|, limit) + 1 - p
  {
    MulMonotone(0, p - 1, limit);
    if p == TotalPages(|all|, limit) + 1 {
      PastLastPage(all, limit);
    } else {
      PagesFromStep(all, p, limit);
      PagesFromSuffix(all, p + 1, limit);
      SuffixSplit(all, PageStart(p, limit), Min(PageStart(p + 1, limit), |all|));
    }
  }

  /** Walking the pages from the first to the last with a fixed limit gives
      back every card, in store order, each once. */
  lemma PagesPartition(all: seq<Card>, limit: int)
    requires limit >= 1
    ensures PagesFrom(all, 1, limit) == all
  {
    PagesFromSuffix(all, 1, limit);
  }

  /** Following a `next` link gives the page after, and following a
      `previous` link the page before. */
  lemma LinksAreNeighbours(all: seq<Card>, page: int, limit: int)
    requires limit >= 1
    ensures var r := Paginate(all, page, limit);
            r.next.Some? ==> Paginate(all, r.next.value.page, r.next.value.limit).currentPage == r.currentPage + 1
    ensures var r := Paginate(all, page, limit);
            r.previous.Some? ==> Paginate(all, r.previous.value.page, r.previous.value.limit).currentPage == r.currentPage - 1
  {
  }

  /** getCardById(id), a pass-through to the store. */
  function GetCardById(s: Store, id: int): (r: Option<Card>)
    ensures r.Some? <==> id in Ids(s.cards)
    ensures r.Some? ==> r.value.id == id && r.value in s.cards
  {
    GetById(s, id)
  }

  /** createCard(cardData), a pass-through to the store. */
  function CreateCard(s: Store, data: CardData, createdAt: Timestamp, updatedAt: Timestamp): (r: Created)
    ensures r.card.id == s.nextId && r.store.nextId == s.nextId + 1
    ensures r.store.cards == s.cards + [r.card]
    ensures r.card.suit == data.suit && r.card.value == data.value
         && r.card.collection == data.collection
    ensures r.card.createdAt == Some(createdAt) && r.card.updatedAt == Some(updatedAt)
  {
    var c := Create(s, data, createdAt, updatedAt);
    assert c.store.cards == c.store.cards[..|s.cards|] + [c.store.cards[|s.cards|]];
    c
  }

  /** updateCard(id, updates), a pass-through to the store. */
  function UpdateCard(s: Store, id: int, patch: Patch, now: Timestamp): (r: Updated)
    ensures r.card.None? <==> id !in Ids(s.cards)
    ensures r.card.None? ==> r.store == s
    ensures |r.store.cards| == |s.cards| && r.store.nextId == s.nextId
    ensures id in Ids(s.cards) ==>
      var i := FindIndex(s.cards, id).value;
      && r.card == Some(r.store.cards[i])
      && r.store.cards[i] == Merge(s.cards[i], patch, now)
      && (forall j :: 0 <= j < |s.cards| && j != i ==> r.store.cards[j] == s.cards[j])
  {
    Update(s, id, patch, now)
  }

  /** deleteCard(id), a pass-through to the store. */
  function DeleteCard(s: Store, id: int): (r: Deleted)
    ensures r.removed <==> id in Ids(s.cards)
    ensures !r.removed ==> r.store == s
    ensures r.store.nextId == s.nextId
    ensures r.removed ==>
      var i := FindIndex(s.cards, id).value;
      && |r.store.cards| == |s.cards| - 1
      && (forall k :: 0 <= k < i ==> r.store.cards[k] == s.cards[k])
      && (forall k :: i <= k < |r.store.cards| ==> r.store.cards[k] == s.cards[k + 1])
  {
    Delete(s, id)
  }
}

=== FILE: js_strings.dfy ===
/** The JavaScript string primitives the card service relies on: the whitespace
    set shared by String.prototype.trim and parseInt, trim itself, parseInt with
    the radix left undefined, the decimal rendering of an integer and
    Array.prototype.join. Section numbers refer to ECMA-262. */
module JsStrings {

  /** The WhiteSpace and LineTerminator code points (sections 12.2 and 12.3
      of ECMA-262): tab, line feed, vertical tab, form feed, carriage return,
      the Unicode space separators, the line and paragraph separators and the
      byte order mark. */
  const Whitespace: set<char> := {
    '\t', '\n', '\U{000B}', '\U{000C}', '\r', ' ', '\U{00A0}', '\U{1680}',
    '\U{2000}', '\U{2001}', '\U{2002}', '\U{2003}', '\U{2004}', '\U{2005}',
    '\U{2006}', '\U{2007}', '\U{2008}', '\U{2009}', '\U{200A}',
    '\U{2028}', '\U{2029}', '\U{202F}', '\U{205F}', '\U{3000}', '\U{FEFF}'}

  predicate IsWhitespace(c: char) {
    c in Whitespace
  }

  predicate AllWhitespace(s: string) {
    forall i :: 0 <= i < |s| ==> IsWhitespace(s[i])
  }

  /** The index of the first character at or after `k` that is not
      whitespace, or |s| when there is none. */
  function SkipForward(s: string, k: nat): (r: nat)
    requires k <= |s|
    ensures k <= r <= |s|
    ensures forall i :: k <= i < r ==> IsWhitespace(s[i])
    ensures r == |s| || !IsWhitespace(s[r])
    decreases |s| - k
  {
    if k < |s| && IsWhitespace(s[k]) then SkipForward(s, k + 1) else k
  }

  /** The end of the text before `k` once trailing whitespace down to `lo`
      is dropped. */
  function SkipBackward(s: string, lo: nat, k: nat): (r: nat)
    requires lo <= k <= |s|
    ensures lo <= r <= k
    ensures forall i :: r <= i < k ==> IsWhitespace(s[i])
    ensures r == lo || !IsWhitespace(s[r - 1])
  {
    if k > lo && IsWhitespace(s[k - 1]) then SkipBackward(s, lo, k - 1) else k
  }

  /** String.prototype.trim (section 22.1.3.32 of ECMA-262): the infix of `s`
      left after removing whitespace from both ends. */
  function Trim(s: string): (r: string)
    ensures |r| <= |s|
    ensures r == [] <==> AllWhitespace(s)
    ensures r != [] ==> !IsWhitespace(r[0]) && !IsWhitespace(r[|r| - 1])
    ensures exists a :: TrimInfixAt(s, r, a)
  {
    var a := SkipForward(s, 0);
    var b := SkipBackward(s, a, |s|);
    assert TrimInfixAt(s, s[a..b], a);
    s[a..b]
  }

  /** `r` sits in `s` at offset `a` with only whitespace around it. */
  predicate TrimInfixAt(s: string, r: string, a: int) {
    && 0 <= a <= |s| - |r| && r == s[a..a + |r|]
    && (forall i :: 0 <= i < a ==> IsWhitespace(s[i]))
    && (forall i :: a + |r| <= i < |s| ==> IsWhitespace(s[i]))
  }

  /** Trimming a trimmed string changes nothing. */
  lemma TrimIdempotent(s: string)
    ensures Trim(Trim(s)) == Trim(s)
  {
    var r := Trim(s);
    if r != [] {
      assert SkipForward(r, 0) == 0;
      assert SkipBackward(r, 0, |r|) == |r|;
    }
  }

  /** SkipForward stops exactly at `n` when only whitespace lies between
      `k` and `n` and something else (or the end) is at `n`. */
  lemma {:induction false} SkipForwardTo(s: string, k: nat, n: nat)
    requires k <= n <= |s|
    requires forall i :: k <= i < n ==> IsWhitespace(s[i])
    requires n == |s| || !IsWhitespace(s[n])
    ensures SkipForward(s, k) == n
    decreases n - k
  {
    if k < n {
      SkipForwardTo(s, k + 1, n);
    }
  }

  /** The two radixes parseInt picks between when none is given. */
  datatype Radix = Decimal | Hexadecimal {
    function Base(): nat {
      if Decimal? then 10 else 16
    }
  }

  /** Whether `c` is a digit of the radix; hexadecimal letters may be in
      either case. */
  predicate IsDigit(c: char, radix: Radix) {
    || '0' <= c <= '9'
    || (radix.Hexadecimal? && ('a' <= c <= 'f' || 'A' <= c <= 'F'))
  }

  /** The value of a digit; letters count from ten. */
  function DigitValue(c: char, radix: Radix): (d: nat)
    requires IsDigit(c, radix)
    ensures d < radix.Base()
  {
    if '0' <= c <= '9' then c as int - '0' as int
    else if 'a' <= c <= 'f' then c as int - 'a' as int + 10
    else c as int - 'A' as int + 10
  }

  predicate AllDigits(s: string, radix: Radix) {
    forall i :: 0 <= i < |s| ==> IsDigit(s[i], radix)
  }

  /** The end of the run of digits of the radix that starts at `k`. */
  function DigitsEnd(s: string, k: nat, radix: Radix): (r: nat)
    requires k <= |s|
    ensures k <= r <= |s|
    ensures forall i :: k <= i < r ==> IsDigit(s[i], radix)
    ensures r == |s| || !IsDigit(s[r], radix)
    decreases |s| - k
  {
    if k < |s| && IsDigit(s[k], radix) then DigitsEnd(s, k + 1, radix) else k
  }

  /** DigitsEnd stops exactly at `n` when digits fill `k` to `n` and
      something else (or the end) is at `n`. */
  lemma {:induction false} DigitsEndAt(s: string, k: nat, n: nat, radix: Radix)
    requires k <= n <= |s|
    requires forall i :: k <= i < n ==> IsDigit(s[i], radix)
    requires n == |s| || !IsDigit(s[n], radix)
    ensures DigitsEnd(s, k, radix) == n
    decreases n - k
  {
    if k < n {
      DigitsEndAt(s, k + 1, n, radix);
    }
  }

  /** A run of digits, cut out of its string, is all digits. */
  lemma DigitRun(s: string, k: nat, e: nat, radix: Radix)
    requires k <= e <= |s|
    requires forall i :: k <= i < e ==> IsDigit(s[i], radix)
    ensures AllDigits(s[k..e], radix)
  {
    assert forall x :: 0 <= x < e - k ==> s[k..e][x] == s[k + x];
  }

  /** The number a digit string denotes, most significant digit first. */
  function DigitsValue(ds: string, radix: Radix): nat
    requires AllDigits(ds, radix)
  {
    if |ds| == 0 then 0
    else DigitsValue(ds[..|ds| - 1], radix) * radix.Base() + DigitValue(ds[|ds| - 1], radix)
  }

  /** A JavaScript number as parseInt can produce it. Negative zero is not
      distinguished from zero: every caller in the service treats them alike. */
  datatype IntOrNaN = NaN | Finite(v: int)

  /** parseInt(input) with the radix left undefined (section 19.2.5 of
      ECMA-262): leading whitespace is skipped, one sign is read, a 0x or 0X
      prefix then selects radix 16 and otherwise radix 10 applies; the longest
      run of digits that follows is the value, and an empty run gives NaN. */
  function ParseInt(input: string): (r: IntOrNaN)
    ensures NoDecimalDigit(input) ==> r == NaN
  {
    ParseSigned(input, SkipForward(input, 0))
  }

  /** parseInt from the first character that is not whitespace: one sign,
      then either a 0x prefix and hexadecimal digits or decimal digits. */
  function ParseSigned(input: string, i: nat): (r: IntOrNaN)
    requires i <= |input|
    ensures (forall p :: i <= p < |input| ==> !IsDigit(input[p], Decimal)) ==> r == NaN
  {
    var negative := i < |input| && input[i] == '-';
    var j := if i < |input| && (input[i] == '+' || input[i] == '-') then i + 1 else i;
    if HexPrefixAt(input, j) then SignedDigits(input, j + 2, Hexadecimal, negative)
    else SignedDigits(input, j, Decimal, negative)
  }

  /** The number the longest run of digits of the radix from `k` denotes,
      negated when asked; NaN when the run is empty. */
  function SignedDigits(input: string, k: nat, radix: Radix, negative: bool): (r: IntOrNaN)
    requires k <= |input|
    ensures r == NaN <==> k == |input| || !IsDigit(input[k], radix)
  {
    var e := DigitsEnd(input, k, radix);
    if e == k then NaN
    else
      DigitRun(input, k, e, radix);
      var v: int := DigitsValue(input[k..e], radix);
      Finite(if negative then -v else v)
  }

  predicate NoDecimalDigit(s: string) {
    forall i :: 0 <= i < |s| ==> !IsDigit(s[i], Decimal)
  }

  /** A 0x or 0X at index j. */
  predicate HexPrefixAt(s: string, j: nat) {
    j + 2 <= |s| && s[j] == '0' && (s[j + 1] == 'x' || s[j + 1] == 'X')
  }

  /** The character for a decimal digit. */
  function DigitChar(d: nat): (c: char)
    requires d < 10
    ensures IsDigit(c, Decimal) && DigitValue(c, Decimal) == d
  {
    ('0' as int + d) as char
  }

  /** The decimal rendering of a natural number, as Number.prototype.toString
      gives it: digits only, no leading zero, denoting `n`. */
  function NatToString(n: nat): (r: string)
    ensures |r| >= 1 && AllDigits(r, Decimal)
    ensures DigitsValue(r, Decimal) == n
    ensures n > 0 ==> r[0] != '0'
  {
    if n < 10 then [DigitChar(n)]
    else
      var p := NatToString(n / 10);
      var r := p + [DigitChar(n % 10)];
      assert r[..|r| - 1] == p;
      r
  }

  /** The decimal rendering of an integer, with a leading minus when negative:
      the digits after the optional minus denote the magnitude. */
  function IntToString(n: int): (r: string)
    ensures |r| >= 1
    ensures r[0] == '-' <==> n < 0
    ensures AllDigits(r[if n < 0 then 1 else 0..], Decimal)
    ensures DigitsValue(r[if n < 0 then 1 else 0..], Decimal) == if n < 0 then -n else n
    ensures n == 0 ==> r == "0"
    ensures n != 0 ==> r[if n < 0 then 1 else 0] != '0'
  {
    if n < 0 then
      var m := NatToString(-n);
      assert ("-" + m)[1..] == m;
      "-" + m
    else
      var m := NatToString(n);
      assert IsDigit(m[0], Decimal);
      m
  }

  /** The sign a numeral may carry in front of its digits. */
  datatype Sign = NoSign | Plus | Minus {
    function Text(): string {
      match this
      case NoSign => ""
      case Plus => "+"
      case Minus => "-"
    }
  }

  /** A decimal numeral that parseInt reads in full: at least one digit, then
      something that is neither a digit nor, after a lone zero, the x of a
      hexadecimal prefix. */
  predicate DecimalNumeral(ds: string, rest: string) {
    && |ds| >= 1 && AllDigits(ds, Decimal)
    && (|rest| == 0 || !IsDigit(rest[0], Decimal))
    && !(ds == "0" && |rest| > 0 && (rest[0] == 'x' || rest[0] == 'X'))
  }

  /** parseInt reads a decimal numeral after optional whitespace and sign and
      stops at the first character that is not a digit, so "  -12abc" is -12. */
  lemma ParseIntDecimalPrefix(input: string, ws: string, sign: Sign, ds: string, rest: string)
    requires input == ws + sign.Text() + ds + rest
    requires AllWhitespace(ws)
    requires DecimalNumeral(ds, rest)
    ensures ParseInt(input)
         == Finite(if sign.Minus? then 0 - DigitsValue(ds, Decimal) else DigitsValue(ds, Decimal))
  {
    var i := |ws|;
    var j := |ws| + |sign.Text()|;
    LeadingWhitespaceOfNumeral(ws, sign.Text(), ds, rest);
    DigitsOfNumeral(ws + sign.Text(), ds, rest);
    assert ws + sign.Text() + ds + rest == (ws + sign.Text()) + ds + rest;
    assert j == (if i < |input| && (input[i] == '+' || input[i] == '-') then i + 1 else i) by {
      if sign.NoSign? {
        assert input[i] == ds[0];
      }
    }
    ParseIntByParts(input, i, j, ds, sign.Minus?);
  }

  /** parseInt of a decimal numeral, in terms of where its sign and digits
      lie. */
  lemma ParseIntByParts(input: string, i: nat, j: nat, ds: string, negative: bool)
    requires i == SkipForward(input, 0)
    requires j == (if i < |input| && (input[i] == '+' || input[i] == '-') then i + 1 else i)
    requires negative == (i < |input| && input[i] == '-')
    requires !HexPrefixAt(input, j)
    requires 0 < |ds| && j + |ds| <= |input| && input[j..j + |ds|] == ds
    requires DigitsEnd(input, j, Decimal) == j + |ds|
    ensures AllDigits(ds, Decimal)
    ensures ParseInt(input) == Finite(if negative then 0 - DigitsValue(ds, Decimal) else DigitsValue(ds, Decimal))
  {
    var v := SignedDigits(input, j, Decimal, negative);
    SignedDigitsOf(input, j, Decimal, negative, ds);
    ParseIntBySign(input, i, j, negative);
    assert ParseInt(input) == v;
  }

  /** In whitespace, sign, digits and rest, the whitespace ends where the sign
      (or the first digit) begins. */
  lemma LeadingWhitespaceOfNumeral(ws: string, st: string, ds: string, rest: string)
    requires AllWhitespace(ws)
    requires st == "" || st == "+" || st == "-"
    requires |ds| >= 1 && AllDigits(ds, Decimal)
    ensures var input := ws + st + ds + rest;
            && SkipForward(input, 0) == |ws|
            && input[|ws|] == if st == "" then ds[0] else st[0]
  {
    var input := ws + st + ds + rest;
    assert forall x :: 0 <= x < |ws| ==> input[x] == ws[x];
    assert input[|ws|] == if st == "" then ds[0] else st[0];
    SkipForwardTo(input, 0, |ws|);
  }

  /** After the prefix, the digits of a decimal numeral are read exactly. */
  lemma DigitsOfNumeral(pre: string, ds: string, rest: string)
    requires DecimalNumeral(ds, rest)
    ensures var input := pre + ds + rest;
            var k := |pre|;
            && !HexPrefixAt(input, k)
            && DigitsEnd(input, k, Decimal) == k + |ds|
            && input[k..k + |ds|] == ds
  {
    var input := pre + ds + rest;
    var k := |pre|;
    var e := k + |ds|;
    assert forall x :: k <= x < e ==> input[x] == ds[x - k];
    assert input[k..e] == ds;
    if e < |input| {
      assert input[e] == rest[0];
    }
    DigitsEndAt(input, k, e, Decimal);
  }

  /** An unsigned decimal numeral at the very start is read up to its last
      digit. */
  lemma ParseIntOfNumeral(ds: string, rest: string)
    requires DecimalNumeral(ds, rest)
    ensures ParseInt(ds + rest) == Finite(DigitsValue(ds, Decimal))
  {
    ParseIntDecimalPrefix(ds + rest, "", NoSign, ds, rest);
  }

  /** parseInt gives NaN when no decimal digit follows the leading whitespace
      and the optional sign: "a1", "+", "-x5" and " - 1" all give NaN. Every
      string splits this way or as in ParseIntDecimalPrefix or
      ParseIntHexPrefix. */
  lemma ParseIntWithoutLeadingDigit(input: string, ws: string, sign: Sign, rest: string)
    requires input == ws + sign.Text() + rest
    requires AllWhitespace(ws)
    requires sign.NoSign? && |rest| > 0 ==> !IsWhitespace(rest[0]) && rest[0] != '+' && rest[0] != '-'
    requires |rest| == 0 || !IsDigit(rest[0], Decimal)
    ensures ParseInt(input) == NaN
  {
    var i := |ws|;
    var j := i + |sign.Text()|;
    SignLayout(ws, sign, rest);
    assert !HexPrefixAt(input, j);
    var v := SignedDigits(input, j, Decimal, sign.Minus?);
    assert v == NaN;
    ParseIntBySign(input, i, j, sign.Minus?);
  }

  /** In whitespace, sign and rest, parseInt finds the sign right after the
      whitespace and the rest right after the sign, provided the rest does
      not itself start with whitespace or a sign when there is none. */
  lemma SignLayout(ws: string, sign: Sign, rest: string)
    requires AllWhitespace(ws)
    requires sign.NoSign? && |rest| > 0 ==> !IsWhitespace(rest[0]) && rest[0] != '+' && rest[0] != '-'
    ensures var input := ws + sign.Text() + rest;
            var i := |ws|;
            && SkipForward(input, 0) == i
            && i + |sign.Text()| == (if i < |input| && (input[i] == '+' || input[i] == '-') then i + 1 else i)
            && sign.Minus? == (i < |input| && input[i] == '-')
            && (|rest| > 0 ==> input[i + |sign.Text()|] == rest[0])
  {
    var input := ws + sign.Text() + rest;
    var i := |ws|;
    assert forall x :: 0 <= x < |ws| ==> input[x] == ws[x];
    if !sign.NoSign? {
      assert input[i] == sign.Text()[0];
    } else if |rest| > 0 {
      assert input[i] == rest[0];
    }
    if |rest| > 0 {
      assert input[i + |sign.Text()|] == rest[0];
    }
    SkipForwardTo(input, 0, i);
  }

  /** A 0x or 0X after the whitespace and sign switches to base 16, and the
      hexadecimal digits after it are read up to the first other character:
      "0x1F" is 31, "-0Xff" is -255, and "0x" or "0xg" is NaN. */
  lemma ParseIntHexPrefix(input: string, ws: string, sign: Sign, x: char, hs: string, rest: string)
    requires input == ws + sign.Text() + ['0', x] + hs + rest
    requires AllWhitespace(ws) && (x == 'x' || x == 'X')
    requires AllDigits(hs, Hexadecimal)
    requires |rest| == 0 || !IsDigit(rest[0], Hexadecimal)
    ensures |hs| == 0 ==> ParseInt(input) == NaN
    ensures |hs| > 0 ==>
      ParseInt(input) == Finite(if sign.Minus? then 0 - DigitsValue(hs, Hexadecimal) else DigitsValue(hs, Hexadecimal))
  {
    var i := |ws|;
    var j := |ws| + |sign.Text()|;
    LeadingWhitespaceOfHex(ws, sign, x, hs, rest);
    HexDigitsOf(ws + sign.Text() + ['0', x], hs, rest);
    ParseIntByHexParts(input, i, j, hs, sign.Minus?);
  }

  /** In whitespace, sign, 0x prefix and the rest, parseInt finds the sign
      right after the whitespace and the prefix right after the sign. */
  lemma LeadingWhitespaceOfHex(ws: string, sign: Sign, x: char, hs: string, rest: string)
    requires AllWhitespace(ws)
    ensures var input := ws + sign.Text() + ['0', x] + hs + rest;
            var i := |ws|;
            var j := i + |sign.Text()|;
            && SkipForward(input, 0) == i
            && j == (if i < |input| && (input[i] == '+' || input[i] == '-') then i + 1 else i)
            && sign.Minus? == (i < |input| && input[i] == '-')
            && input[j] == '0' && input[j + 1] == x
  {
    var input := ws + sign.Text() + ['0', x] + hs + rest;
    var i := |ws|;
    assert forall y :: 0 <= y < |ws| ==> input[y] == ws[y];
    assert input[i] == if sign.NoSign? then '0' else sign.Text()[0];
    SkipForwardTo(input, 0, i);
  }

  /** After the prefix, the hexadecimal digits are read exactly. */
  lemma HexDigitsOf(pre: string, hs: string, rest: string)
    requires AllDigits(hs, Hexadecimal)
    requires |rest| == 0 || !IsDigit(rest[0], Hexadecimal)
    ensures var input := pre + hs + rest;
            var k := |pre|;
            && DigitsEnd(input, k, Hexadecimal) == k + |hs|
            && input[k..k + |hs|] == hs
  {
    var input := pre + hs + rest;
    var k := |pre|;
    var e := k + |hs|;
    assert forall y :: k <= y < e ==> input[y] == hs[y - k];
    assert input[k..e] == hs;
    if e < |input| {
      assert input[e] == rest[0];
    }
    DigitsEndAt(input, k, e, Hexadecimal);
  }

  /** parseInt of a hexadecimal numeral, in terms of where its sign, prefix
      and digits lie. */
  lemma ParseIntByHexParts(input: string, i: nat, j: nat, hs: string, negative: bool)
    requires i == SkipForward(input, 0)
    requires j == (if i < |input| && (input[i] == '+' || input[i] == '-') then i + 1 else i)
    requires negative == (i < |input| && input[i] == '-')
    requires HexPrefixAt(input, j)
    requires j + 2 + |hs| <= |input| && input[j + 2..j + 2 + |hs|] == hs
    requires DigitsEnd(input, j + 2, Hexadecimal) == j + 2 + |hs|
    ensures AllDigits(hs, Hexadecimal)
    ensures |hs| == 0 ==> ParseInt(input) == NaN
    ensures |hs| > 0 ==>
      ParseInt(input) == Finite(if negative then 0 - DigitsValue(hs, Hexadecimal) else DigitsValue(hs, Hexadecimal))
  {
    var v := SignedDigits(input, j + 2, Hexadecimal, negative);
    SignedDigitsOf(input, j + 2, Hexadecimal, negative, hs);
    ParseIntBySign(input, i, j, negative);
    assert ParseInt(input) == v;
  }

  /** parseInt reads the digits after the whitespace, the sign and any 0x
      prefix. */
  lemma ParseIntBySign(input: string, i: nat, j: nat, negative: bool)
    requires i == SkipForward(input, 0)
    requires j == (if i < |input| && (input[i] == '+' || input[i] == '-') then i + 1 else i)
    requires negative == (i < |input| && input[i] == '-')
    ensures ParseInt(input) == if HexPrefixAt(input, j) then SignedDigits(input, j + 2, Hexadecimal, negative)
                               else SignedDigits(input, j, Decimal, negative)
  {
    assert ParseInt(input) == ParseSigned(input, i);
  }

  /** The digits SignedDigits reads, once their extent is known. */
  lemma SignedDigitsOf(input: string, k: nat, radix: Radix, negative: bool, ds: string)
    requires k + |ds| <= |input| && input[k..k + |ds|] == ds
    requires DigitsEnd(input, k, radix) == k + |ds|
    ensures AllDigits(ds, radix)
    ensures |ds| == 0 ==> SignedDigits(input, k, radix, negative) == NaN
    ensures |ds| > 0 ==>
      SignedDigits(input, k, radix, negative) == Finite(if negative then 0 - DigitsValue(ds, radix) else DigitsValue(ds, radix))
  {
    DigitRun(input, k, k + |ds|, radix);
  }

  /** parseInt undoes the decimal rendering of every integer. */
  lemma ParseIntRoundTrip(n: int)
    ensures ParseInt(IntToString(n)) == Finite(n)
  {
    var m: nat := if n < 0 then -n else n;
    var sign := if n < 0 then Minus else NoSign;
    RenderingBySign(n);
    ParseIntOfRendering(sign, m);
  }

  /** The rendering of an integer is its sign followed by its magnitude. */
  lemma RenderingBySign(n: int)
    ensures IntToString(n) == (if n < 0 then Minus else NoSign).Text() + NatToString(if n < 0 then -n else n)
  {
  }

  lemma ParseIntOfRendering(sign: Sign, m: nat)
    ensures ParseInt(sign.Text() + NatToString(m)) == Finite(if sign.Minus? then 0 - m else m)
  {
    var ds := NatToString(m);
    ParseIntDecimalPrefix(sign.Text() + ds, "", sign, ds, "");
  }

  /** The summed lengths of the strings. */
  function TotalLength(parts: seq<string>): nat {
    if |parts| == 0 then 0 else |parts[0]| + TotalLength(parts[1..])
  }

  /** Array.prototype.join(sep) over an array of strings: the parts with one
      separator between each neighbouring pair, the first part leading. */
  function Join(parts: seq<string>, sep: string): (r: string)
    ensures |parts| == 0 ==> r == ""
    ensures |parts| >= 1 ==> |r| == TotalLength(parts) + (|parts| - 1) * |sep|
    ensures |parts| >= 1 ==> |parts[0]| <= |r| && r[..|parts[0]|] == parts[0]
  {
    if |parts| == 0 then ""
    else if |parts| == 1 then parts[0]
    else parts[0] + sep + Join(parts[1..], sep)
  }

  /** Joining one more part puts the separator and the part after the join
      of the others. */
  lemma {:induction false} JoinSnoc(parts: seq<string>, p: string, sep: string)
    requires |parts| >= 1
    ensures Join(parts + [p], sep) == Join(parts, sep) + sep + p
    decreases |parts|
  {
    if |parts| == 1 {
      assert parts + [p] == [parts[0], p];
    } else {
      assert (parts + [p])[1..] == parts[1..] + [p];
      JoinSnoc(parts[1..], p, sep);
    }
  }

  /** Joining one string gives it back; joining two puts the separator
      between them. */
  lemma JoinShort(a: string, b: string, sep: string)
    ensures Join([a], sep) == a
    ensures Join([a, b], sep) == a + sep + b
  {
    assert [a, b][1..] == [b];
  }
}

=== FILE: js_values.dfy ===
/** The JavaScript values a request hands to the card controller: the parsed
    JSON body, and the query-string parameters as Express's query parser
    delivers them. */
module JsValues {
  import opened JsStrings

  /** A value of a parsed JSON request body, with `Undefined` standing for a
      body or a property that is not there. JSON numbers are kept as
      integers: the service only ever asks whether a number is zero. */
  datatype Value =
    | Undefined
    | Null
    | Bool(b: bool)
    | Num(n: int)
    | Str(s: string)
    | Arr(items: seq<Value>)
    | Obj(props: map<string, Value>)

  /** The values for which `!v` holds: every array and object is truthy,
      even an empty one, and a string is falsy exactly when it is empty. */
  predicate Falsy(v: Value)
    ensures Falsy(v) ==> !(v.Arr? || v.Obj?)
    ensures v.Str? ==> (Falsy(v) <==> v.s == "")
    ensures v.Num? ==> (Falsy(v) <==> v.n == 0)
  {
    v == Undefined || v == Null || v == Bool(false) || v == Num(0) || v == Str("")
  }

  /** `typeof v === 'object'`, which holds of null and of arrays too; so
      `v && typeof v === 'object'` lets exactly arrays and objects through. */
  predicate IsObjectType(v: Value)
    ensures IsObjectType(v) && !Falsy(v) <==> v.Arr? || v.Obj?
    ensures v.Str? ==> !IsObjectType(v)
  {
    v.Null? || v.Arr? || v.Obj?
  }

  /** The property read `v[key]` for the card field names: an own property
      of an object, and `undefined` on anything else (arrays, strings and
      the other primitives carry no property of those names). */
  function Prop(v: Value, key: string): (r: Value)
    ensures r != Undefined ==> v.Obj? && key in v.props && v.props[key] == r
    ensures v.Obj? && key in v.props ==> r == v.props[key]
  {
    if v.Obj? && key in v.props then v.props[key] else Undefined
  }

  /** A query-string parameter: absent, a single string, the strings of a
      repeated key (`?page=1&page=2`), or a bracketed key that the parser
      turns into an object (`?page[a]=1`). */
  datatype QueryValue = Absent | Text(s: string) | List(items: seq<string>) | Nested

  /** String(q), the text that parseInt reads from the parameter: a single
      value is itself, a repeated key joins its values with commas, and a
      missing or nested parameter has no digit at all. */
  function QueryText(q: QueryValue): (r: string)
    ensures q.Text? ==> r == q.s
    ensures q.List? && |q.items| == 1 ==> r == q.items[0]
    ensures q.List? && |q.items| >= 1 ==> |q.items[0]| <= |r| && r[..|q.items[0]|] == q.items[0]
    ensures q.List? && |q.items| >= 2 ==> |q.items[0]| + 1 <= |r| && r[..|q.items[0]| + 1] == q.items[0] + ","
    ensures q.Absent? || q.Nested? ==> NoDecimalDigit(r)
  {
    match q
    case Absent => "undefined"
    case Text(s) => s
    case List(items) => Join(items, ",")
    case Nested => "[object Object]"
  }

  /** A missing or object-valued query parameter parses as NaN. */
  lemma QueryWithoutTextIsNaN(q: QueryValue)
    requires q.Absent? || q.Nested?
    ensures ParseInt(QueryText(q)) == NaN
  {
  }
}

=== FILE: validators.dfy ===
/** The request validators of the card service (utils/validators.js): they
    never fail, and report a validity flag together with the messages of
    every check that did not pass. */
module Validators {
  import opened Wrappers
  import opened JsStrings
  import opened JsValues

  /** `{ valid, errors }`. */
  datatype Validation = Validation(valid: bool, errors: seq<string>)

  /** `{ valid, error }`, with `error` null when the id is valid. */
  datatype IdValidation = IdValidation(valid: bool, error: Option<string>)

  const NotAnObject := "Card data must be a valid object"
  const PageError := "page must be a positive integer"
  const LimitError := "limit must be a positive integer between 1 and 100"
  const IdError := "Card ID must be a positive number"

  /** The card fields, in the order the validator checks them. */
  const CardFields: seq<string> := ["suit", "value", "collection"]

  /** The message for each field of CardFields, when creating and when
      updating. */
  const CreationMessages: seq<string> := [
    "suit is required and must be a non-empty string",
    "value is required and must be a non-empty string",
    "collection is required and must be a non-empty string"]
  const UpdateMessages: seq<string> := [
    "suit must be a non-empty string",
    "value must be a non-empty string",
    "collection must be a non-empty string"]

  function Messages(isCreation: bool): (m: seq<string>)
    ensures |m| == 3
  {
    if isCreation then CreationMessages else UpdateMessages
  }

  /** The position of `e` among the messages, or 3 when it is none of them. */
  function MessageRank(e: string, isCreation: bool): nat {
    var m := Messages(isCreation);
    if e == m[0] then 0 else if e == m[1] then 1 else if e == m[2] then 2 else 3
  }

  /** A string with something besides whitespace in it. */
  predicate NonBlankString(v: Value) {
    v.Str? && Trim(v.s) != ""
  }

  /** What a field must satisfy: on creation it must be a non-blank string;
      on update it may be absent, and must be a non-blank string otherwise. */
  predicate FieldOk(data: Value, field: string, isCreation: bool) {
    var v := Prop(data, field);
    if isCreation then NonBlankString(v) else v == Undefined || NonBlankString(v)
  }

  predicate AllFieldsOk(data: Value, isCreation: bool) {
    forall k :: 0 <= k < 3 ==> FieldOk(data, CardFields[k], isCreation)
  }

  /** The check the creation branch applies to one field, as written:
      falsy, not a string, or blank after trimming. */
  function CreationCheck(data: Value, k: nat): (errors: seq<string>)
    requires k < 3
    ensures errors == [] <==> FieldOk(data, CardFields[k], true)
    ensures errors == [] || errors == [CreationMessages[k]]
  {
    var v := Prop(data, CardFields[k]);
    if Falsy(v) || !v.Str? || Trim(v.s) == "" then [CreationMessages[k]] else []
  }

  /** The check the update branch applies to one field, as written: only a
      field that is not undefined is looked at. */
  function UpdateCheck(data: Value, k: nat): (errors: seq<string>)
    requires k < 3
    ensures errors == [] <==> FieldOk(data, CardFields[k], false)
    ensures errors == [] || errors == [UpdateMessages[k]]
  {
    var v := Prop(data, CardFields[k]);
    if v != Undefined then
      if !v.Str? || Trim(v.s) == "" then [UpdateMessages[k]] else []
    else []
  }

  /** The check of the k-th field in the given mode. */
  function FieldCheck(data: Value, k: nat, isCreation: bool): (errors: seq<string>)
    requires k < 3
    ensures errors == [] <==> FieldOk(data, CardFields[k], isCreation)
    ensures errors == [] || errors == [Messages(isCreation)[k]]
  {
    if isCreation then CreationCheck(data, k) else UpdateCheck(data, k)
  }

  /** Every error is one of the field messages, and they appear in field
      order (so none twice). */
  predicate InFieldOrder(errors: seq<string>, isCreation: bool) {
    && (forall i :: 0 <= i < |errors| ==> MessageRank(errors[i], isCreation) < 3)
    && (forall i, j :: 0 <= i < j < |errors| ==>
          MessageRank(errors[i], isCreation) < MessageRank(errors[j], isCreation))
  }

  /** The field messages are told apart by MessageRank. */
  lemma MessageRanks(isCreation: bool)
    ensures forall k :: 0 <= k < 3 ==> MessageRank(Messages(isCreation)[k], isCreation) == k
  {
    var m := Messages(isCreation);
    assert |m[0]| != |m[1]| && |m[0]| != |m[2]| && |m[1]| != |m[2]|;
  }

  /** Three per-field checks, concatenated, keep the field order. */
  lemma ChecksInOrder(a: seq<string>, b: seq<string>, c: seq<string>, isCreation: bool)
    requires a == [] || a == [Messages(isCreation)[0]]
    requires b == [] || b == [Messages(isCreation)[1]]
    requires c == [] || c == [Messages(isCreation)[2]]
    ensures InFieldOrder(a + b + c, isCreation)
  {
    MessageRanks(isCreation);
    var errors := a + b + c;
    assert forall i :: 0 <= i < |a| ==> MessageRank(errors[i], isCreation) == 0;
    assert forall i :: |a| <= i < |a| + |b| ==> MessageRank(errors[i], isCreation) == 1;
    assert forall i :: |a| + |b| <= i < |errors| ==> MessageRank(errors[i], isCreation) == 2;
  }

  /** In three concatenated per-field checks, a field's message is present
      exactly when its own check failed. */
  lemma ChecksMembership(a: seq<string>, b: seq<string>, c: seq<string>, isCreation: bool)
    requires a == [] || a == [Messages(isCreation)[0]]
    requires b == [] || b == [Messages(isCreation)[1]]
    requires c == [] || c == [Messages(isCreation)[2]]
    ensures Messages(isCreation)[0] in a + b + c <==> a != []
    ensures Messages(isCreation)[1] in a + b + c <==> b != []
    ensures Messages(isCreation)[2] in a + b + c <==> c != []
  {
    var m := Messages(isCreation);
    assert |m[0]| != |m[1]| && |m[0]| != |m[2]| && |m[1]| != |m[2]|;
  }

  /** The three field checks, concatenated in field order. */
  function AllChecks(data: Value, isCreation: bool): seq<string> {
    FieldCheck(data, 0, isCreation) + FieldCheck(data, 1, isCreation) + FieldCheck(data, 2, isCreation)
  }

  /** The errors of the field checks, in field order. */
  function FieldErrors(data: Value, isCreation: bool): (errors: seq<string>)
    ensures errors == [] <==> AllFieldsOk(data, isCreation)
    ensures forall k :: 0 <= k < 3 ==>
      (Messages(isCreation)[k] in errors <==> !FieldOk(data, CardFields[k], isCreation))
    ensures InFieldOrder(errors, isCreation)
  {
    ChecksInOrder(FieldCheck(data, 0, isCreation), FieldCheck(data, 1, isCreation),
                  FieldCheck(data, 2, isCreation), isCreation);
    NoErrorsMeansAllFieldsOk(data, isCreation);
    ErrorsNameFailedFields(data, isCreation);
    AllChecks(data, isCreation)
  }

  /** The checks report nothing exactly when every field is acceptable. */
  lemma NoErrorsMeansAllFieldsOk(data: Value, isCreation: bool)
    ensures AllChecks(data, isCreation) == [] <==> AllFieldsOk(data, isCreation)
  {
    var ok0 := FieldOk(data, CardFields[0], isCreation);
    var ok1 := FieldOk(data, CardFields[1], isCreation);
    var ok2 := FieldOk(data, CardFields[2], isCreation);
    assert AllChecks(data, isCreation) == [] <==> ok0 && ok1 && ok2;
    if ok0 && ok1 && ok2 {
      forall k | 0 <= k < 3 ensures FieldOk(data, CardFields[k], isCreation) {
        if k == 0 { assert ok0; } else if k == 1 { assert ok1; } else { assert ok2; }
      }
    }
  }

  /** The checks report a field's message exactly when the field is not
      acceptable. */
  lemma ErrorsNameFailedFields(data: Value, isCreation: bool)
    ensures forall k :: 0 <= k < 3 ==>
      (Messages(isCreation)[k] in AllChecks(data, isCreation) <==> !FieldOk(data, CardFields[k], isCreation))
  {
    var a := FieldCheck(data, 0, isCreation);
    var b := FieldCheck(data, 1, isCreation);
    var c := FieldCheck(data, 2, isCreation);
    ChecksMembership(a, b, c, isCreation);
    forall k | 0 <= k < 3
      ensures Messages(isCreation)[k] in a + b + c <==> !FieldOk(data, CardFields[k], isCreation)
    {
      if k == 0 {
        assert a == [] <==> FieldOk(data, CardFields[k], isCreation);
      } else if k == 1 {
        assert b == [] <==> FieldOk(data, CardFields[k], isCreation);
      } else {
        assert c == [] <==> FieldOk(data, CardFields[k], isCreation);
      }
    }
  }

  /** validateCardData(cardData, isCreation). Anything but an object or an
      array is rejected with the single NotAnObject message; otherwise the
      message of a field is reported exactly when the field fails FieldOk,
      and the messages come in field order. */
  function ValidateCardData(data: Value, isCreation: bool): (r: Validation)
    ensures r.valid <==> r.errors == []
    ensures !(data.Arr? || data.Obj?) ==> r.errors == [NotAnObject]
    ensures (data.Arr? || data.Obj?) ==> (r.valid <==> AllFieldsOk(data, isCreation))
    ensures (data.Arr? || data.Obj?) ==>
      forall k :: 0 <= k < 3 ==>
        (Messages(isCreation)[k] in r.errors <==> !FieldOk(data, CardFields[k], isCreation))
    ensures (data.Arr? || data.Obj?) ==> InFieldOrder(r.errors, isCreation)
  {
    if Falsy(data) || !IsObjectType(data) then
      Validation(false, [NotAnObject])
    else
      var errors := FieldErrors(data, isCreation);
      Validation(|errors| == 0, errors)
  }

  /** Whatever passes creation validation passes update validation. */
  lemma CreationValidImpliesUpdateValid(data: Value)
    ensures ValidateCardData(data, true).valid ==> ValidateCardData(data, false).valid
  {
    if ValidateCardData(data, true).valid {
      forall k | 0 <= k < 3
        ensures FieldOk(data, CardFields[k], false)
      {
        assert FieldOk(data, CardFields[k], true);
      }
    }
  }

  /** An update body with none of the card fields is valid, whether it is an
      empty object or an array. */
  lemma UpdateWithoutFieldsIsValid(data: Value)
    requires data == Obj(map[]) || data.Arr?
    ensures ValidateCardData(data, false) == Validation(true, [])
  {
    forall k | 0 <= k < 3
      ensures FieldOk(data, CardFields[k], false)
    {
      assert Prop(data, CardFields[k]) == Undefined;
    }
  }

  /** validatePaginationParams(page, limit): the page message exactly when
      page is NaN or below 1, the limit message exactly when limit is NaN or
      outside 1..100, page first. */
  function ValidatePaginationParams(page: IntOrNaN, limit: IntOrNaN): (r: Validation)
    ensures r.valid <==> r.errors == []
    ensures PageError in r.errors <==> page.NaN? || page.v < 1
    ensures LimitError in r.errors <==> limit.NaN? || limit.v < 1 || limit.v > 100
    ensures forall e :: e in r.errors ==> e == PageError || e == LimitError
    ensures |r.errors| <= 2
    ensures |r.errors| == 2 ==> r.errors == [PageError, LimitError]
  {
    var p := if page.NaN? || page.v < 1 then [PageError] else [];
    var l := if limit.NaN? || limit.v < 1 || limit.v > 100 then [LimitError] else [];
    var errors := p + l;
    Validation(|errors| == 0, errors)
  }

  /** The id test: parseInt gives a number above zero. */
  predicate PositiveId(id: string) {
    ParseInt(id).Finite? && ParseInt(id).v > 0
  }

  /** validateCardId(id): valid exactly when parseInt(id) is a number above
      zero, with the fixed message otherwise. */
  function ValidateCardId(id: string): (r: IdValidation)
    ensures r.valid <==> r.error.None?
    ensures !r.valid ==> r.error == Some(IdError)
    ensures r.valid <==> PositiveId(id)
  {
    var parsed := ParseInt(id);
    if parsed.NaN? || parsed.v <= 0 then IdValidation(false, Some(IdError))
    else IdValidation(true, None)
  }

  /** The decimal rendering of an integer is a valid id exactly when the
      integer is positive. */
  lemma RenderedIdValidity(n: int)
    ensures ValidateCardId(IntToString(n)).valid <==> n > 0
  {
    ParseIntRoundTrip(n);
  }

  /** Only the leading digits count: a positive numeral followed by anything
      that is not a digit, such as "12abc", is a valid id. */
  lemma TrailingTextIsIgnored(n: nat, rest: string)
    requires n > 0
    requires |rest| == 0 || !IsDigit(rest[0], Decimal)
    ensures ValidateCardId(NatToString(n) + rest).valid
  {
    ParseIntOfNumeral(NatToString(n), rest);
  }

  /** A string without any decimal digit, such as "abc", is not a valid id. */
  lemma DigitlessIdIsInvalid(id: string)
    requires NoDecimalDigit(id)
    ensures ValidateCardId(id) == IdValidation(false, Some(IdError))
  {
  }

  /** An id in which no decimal digit follows the leading whitespace and
      the optional sign, such as "a1", "-x5" or " - 1", is not a valid id. */
  lemma IdWithoutLeadingDigitIsInvalid(id: string, ws: string, sign: Sign, rest: string)
    requires id == ws + sign.Text() + rest
    requires AllWhitespace(ws)
    requires sign.NoSign? && |rest| > 0 ==> !IsWhitespace(rest[0]) && rest[0] != '+' && rest[0] != '-'
    requires |rest| == 0 || !IsDigit(rest[0], Decimal)
    ensures ValidateCardId(id) == IdValidation(false, Some(IdError))
  {
    ParseIntWithoutLeadingDigit(id, ws, sign, rest);
  }

  /** An id that is a decimal numeral after whitespace and a sign is valid
      exactly when it is not negated and its digits are not all zero: "007"
      and " +12x" are valid ids, "0" and "-5" are not. */
  lemma DecimalIdValidity(id: string, ws: string, sign: Sign, ds: string, rest: string)
    requires id == ws + sign.Text() + ds + rest
    requires AllWhitespace(ws) && DecimalNumeral(ds, rest)
    ensures ValidateCardId(id).valid <==> !sign.Minus? && DigitsValue(ds, Decimal) > 0
  {
    ParseIntDecimalPrefix(id, ws, sign, ds, rest);
  }

  /** A hexadecimal id is read in base 16: "0x1F" is a valid id, while "0x",
      "0x0" and "-0x5" are not. */
  lemma HexIdValidity(id: string, ws: string, sign: Sign, x: char, hs: string, rest: string)
    requires id == ws + sign.Text() + ['0', x] + hs + rest
    requires AllWhitespace(ws) && (x == 'x' || x == 'X')
    requires AllDigits(hs, Hexadecimal)
    requires |rest| == 0 || !IsDigit(rest[0], Hexadecimal)
    ensures ValidateCardId(id).valid <==> |hs| > 0 && !sign.Minus? && DigitsValue(hs, Hexadecimal) > 0
  {
    ParseIntHexPrefix(id, ws, sign, x, hs, rest);
  }
}

=== FILE: wrappers.dfy ===
/** The optional value used wherever the service returns `undefined` or `null`
    in place of a record. */
module Wrappers {

  datatype Option<+T> = None | Some(value: T) {

    /** The carried value, or `default` when there is none. */
    function GetOr(default: T): T {
      match this
      case Some(v) => v
      case None => default
    }
  }
}
